=== FILE: README.md ===
# Pet-store API, load-test and careers-page rules in Dafny

This project models the deterministic core of a test-automation repository that
exercises three systems: a pet-store REST API, the n11.com shop under load, and
the careers pages of insiderone.com driven through Selenium page objects. Most of
that repository is I/O over third-party libraries; what is modelled here is the
logic it owns:

- `HttpStatus` (`http_status_code.dfy`): the `HttpStatusCode` enum. It covers the
  fixed table of (code, phrase) pairs with the repository's own phrases, such as
  422 "Unprocessable Entity". It also covers the linear `fromCode` lookup with its
  `null` fall-through, the 2xx/4xx/5xx range classifiers and `toString`.
- `TagDto`, `PetDto` and `ApiResponseDto` (`tag.dfy`, `pet.dfy`, `api_response.dfy`):
  the mutable data-transfer objects.
  - Each is a class with the same fields, constructors and setters.
  - Java `null` is `None`.
  - `Pet`'s constructors and list setters replace a `null` list by an empty one.
  - `equals` is field-wise. `Pet` compares its tag list element by element with
    `Tag.equals`.
  - The `toString` shapes of `Tag` and `ApiResponse` are modelled too.
- `Headers` (`headers.dfy`): `get_request_headers` and `get_ajax_headers` of the
  load test. The second is a dictionary update over the first. The random
  User-Agent choice is the parameter `pick`.
- `ScraperUrl` (`scraper_url.dfy`): the rule that makes a relative URL absolute
  against `https://www.n11.com` before the scraper session sends it.
- `JobListSelection`, `QaJobRules`, `QaOptionRules` and `LegacyQaJobRules`
  (`job_lists.dfy`, `qa_job_rules.dfy`, `qa_option_rules.dfy`,
  `legacy_qa_job_rules.dfy`): the decision rules of the two `QualityAssurancePage`
  variants, over sequences of option and job texts with a `displayed` flag.
  - The newer page object (under `selenium-automation/`) counts matching job
    cards and passes when at least one matches.
  - The older one (under `src/`) requires every displayed job to match.
  - Its location test is `istanbul || turkey`, where the newer one asks for
    `istanbul && (turkey || turkiye)`. `LegacyQaJobRules.TurkeyAloneSuffices`
    shows a job that only the older rule accepts.
  - The location and department option searches do the same steps in both files.
    So do `selectOptionByVisibleTextOrPartial`, `getJobCount` and
    `validateJobCountConsistency`. They are modelled once and cited in both.
  - The two files differ only in some `catch` clauses. The older file catches
    every `Exception`. The newer one catches a few named Selenium exceptions.
  - In `applyLocationFilter` that difference decides the error the caller sees.
    `QaOptionRules.ApplyLocationFilter` models it per variant.
  - In the department fallback of `waitForDepartmentFilterToLoad` it does not
    matter. The only exception the model raises there is
    `selectByVisibleText`'s `NoSuchElementException`, and both variants catch it.
- `JavaText` (`java_text.dfy`): the Java string operations the rules use.
  - `trim` strips every character up to U+0020.
  - `toLowerCase` is modelled for ASCII letters.
  - `contains`, `startsWith` and `equalsIgnoreCase` are included.
  - Decimal rendering of an `Integer` comes with a parser, so that printed codes
    can be read back in proofs.

Selenium's `Select.selectByVisibleText(v)` is library code. It is modelled by
`QaOptionRules.FindVisibleText`: the first option whose trimmed text is `v`.
Having no such option stands for the `NoSuchElementException` it throws.

An exception that the page object catches and turns into `false` is modelled as
that `false` result. Examples are a missing title element and a failing `getText`
in either variant's job check (a card's `readable` flag in the newer one, a job
text of `None` in the older one). An exception that escapes a method is an `Err`
carrying its message.
- `applyDepartmentFilter`, in both variants, catches every `Exception` and
  rethrows it with the "Failed to apply department filter: " prefix. The failed
  department check is an `AssertionError`, which that `catch` does not catch, so
  its "Department filter was not applied correctly. Expected to contain '…' but
  got '…'" message escapes unwrapped.
- `applyLocationFilter` differs between the variants. The option searches return
  the `RuntimeException` message they raise. The older variant catches every
  `Exception` and adds the "Failed to apply location filter: " prefix. The newer
  one catches only `NoSuchElementException`, `StaleElementReferenceException` and
  `TimeoutException`, so the message reaches the caller unchanged.

## Model

| member | source | states |
|---|---|---|
| HttpStatus.StatusCode.Ordinal | api-test/src/test/java/utils/HttpStatusCode.java:9-28 | every constant is listed in `values()`, at its declaration position |
| HttpStatus.StatusCode.ToString | api-test/src/test/java/utils/HttpStatusCode.java:46-49 | `toString` is a three-digit code, one space, then exactly the description |
| HttpStatus.FromCode | api-test/src/test/java/utils/HttpStatusCode.java:56-63 | `fromCode(c)` returns the constant whose code is `c`; it returns `null` exactly when no constant has that code; the result is the one `Lookup` gives |
| HttpStatus.CodeInjective | api-test/src/test/java/utils/HttpStatusCode.java:9-28 | no two declared constants share a code |
| HttpStatus.LookupInSpec | api-test/src/test/java/utils/HttpStatusCode.java:57-62 | the linear scan over a list of constants finds one with the code asked for, or `null` iff none in the list has it |
| HttpStatus.LookupSpec | api-test/src/test/java/utils/HttpStatusCode.java:56-63 | the lookup over `values()` returns `s` iff `s` has the code asked for |
| HttpStatus.LookupRoundTrip | api-test/src/test/java/utils/HttpStatusCode.java:9-63 | `fromCode(s.getCode()) == s` for every constant |
| HttpStatus.LookupTeapotIsNull | api-test/src/test/java/utils/HttpStatusCode.java:56-63 | `fromCode(418)` is `null` |
| HttpStatus.StatusCode.IsSuccess | api-test/src/test/java/utils/HttpStatusCode.java:69-71 | `isSuccess`: the code is from 200 to 299 (its leading-digit meaning is `ClassIsLeadingDigit`) |
| HttpStatus.StatusCode.IsClientError | api-test/src/test/java/utils/HttpStatusCode.java:77-79 | `isClientError`: the code is from 400 to 499 |
| HttpStatus.StatusCode.IsServerError | api-test/src/test/java/utils/HttpStatusCode.java:85-87 | `isServerError`: the code is from 500 to 599 |
| HttpStatus.ExactlyOneClass | api-test/src/test/java/utils/HttpStatusCode.java:69-87 | every constant is in exactly one of the success, client-error and server-error ranges |
| HttpStatus.LeadingDigitOfThreeDigits | api-test/src/test/java/utils/HttpStatusCode.java:48 | a code from 100 to 999 prints as three digits, the first being its hundreds digit |
| HttpStatus.ClassIsLeadingDigit | api-test/src/test/java/utils/HttpStatusCode.java:46-87 | `isSuccess`, `isClientError` and `isServerError` hold iff `toString` starts with '2', '4' or '5' respectively |
| HttpStatus.ToStringRoundTrip | api-test/src/test/java/utils/HttpStatusCode.java:46-63 | parsing the text of `toString` up to the space and passing it to `fromCode` gives back the constant |
| TagDto.Tag.Empty | api-test/src/test/java/model/dto/Tag.java:21-22 | the no-arg constructor leaves id and name unset |
| TagDto.Tag.constructor | api-test/src/test/java/model/dto/Tag.java:24-27 | the two-arg constructor stores id and name as given |
| TagDto.Tag.SetId | api-test/src/test/java/model/dto/Tag.java:33-35 | `setId` sets the id and leaves the name unchanged |
| TagDto.Tag.SetName | api-test/src/test/java/model/dto/Tag.java:41-43 | `setName` sets the name and leaves the id unchanged |
| TagDto.Tag.Equals | api-test/src/test/java/model/dto/Tag.java:45-52 | `equals` holds iff the other tag is non-null and ids and names are null-safe equal |
| TagDto.Tag.ToString | api-test/src/test/java/model/dto/Tag.java:59-65 | `toString` starts with `Tag{id=` and ends with `'}` |
| TagDto.EqualsReflexive | api-test/src/test/java/model/dto/Tag.java:45-52 | `equals` is reflexive |
| TagDto.EqualsSymmetric | api-test/src/test/java/model/dto/Tag.java:45-52 | `equals` is symmetric |
| TagDto.EqualsTransitive | api-test/src/test/java/model/dto/Tag.java:45-52 | `equals` is transitive |
| TagDto.ToStringFields | api-test/src/test/java/model/dto/Tag.java:59-65 | the id can be read back from `toString`; what follows the id is exactly `, name='`, the name or `null`, then `'}` |
| TagDto.NullNamePrintsLikeTextNull | api-test/src/test/java/model/dto/Tag.java:45-65 | a `null` name and the text "null" print alike, although the two tags are not equal |
| PetDto.Pet.Empty | api-test/src/test/java/model/dto/Pet.java:35-38 | the no-arg constructor gives empty `photoUrls` and `tags` and leaves the other fields unset |
| PetDto.Pet.Named | api-test/src/test/java/model/dto/Pet.java:40-44 | the two-arg constructor stores the name and a non-null list as given; a `null` list becomes empty, and tags start empty |
| PetDto.Pet.constructor | api-test/src/test/java/model/dto/Pet.java:46-54 | the six-arg constructor stores every argument as given, except that `null` lists become empty |
| PetDto.Pet.SetId | api-test/src/test/java/model/dto/Pet.java:60-62 | `setId` changes only the id and keeps the non-null-lists invariant |
| PetDto.Pet.SetCategory | api-test/src/test/java/model/dto/Pet.java:68-70 | `setCategory` changes only the category and keeps the invariant |
| PetDto.Pet.SetName | api-test/src/test/java/model/dto/Pet.java:76-78 | `setName` changes only the name and keeps the invariant |
| PetDto.Pet.SetPhotoUrls | api-test/src/test/java/model/dto/Pet.java:84-86 | `setPhotoUrls` stores a non-null list as given and an empty list for `null`; nothing else changes |
| PetDto.Pet.SetTags | api-test/src/test/java/model/dto/Pet.java:92-94 | `setTags` stores a non-null list as given and an empty list for `null`; nothing else changes |
| PetDto.Pet.SetStatus | api-test/src/test/java/model/dto/Pet.java:100-102 | `setStatus` changes only the status and keeps the invariant |
| PetDto.Pet.Equals | api-test/src/test/java/model/dto/Pet.java:113-124 | `equals` holds iff the other pet is non-null and all six fields are null-safe equal, tags compared with `Tag.equals` |
| PetDto.TagListEquals | api-test/src/test/java/model/dto/Pet.java:122 | list equality of two tag lists, element-wise with `Tag.equals`, holds iff their tag values are equal |
| PetDto.StatusConstantsDistinct | api-test/src/test/java/model/dto/Pet.java:107-111 | the status constants are the distinct strings "available", "pending" and "sold" |
| PetDto.EqualsReflexive | api-test/src/test/java/model/dto/Pet.java:113-124 | `equals` is reflexive |
| PetDto.EqualsSymmetric | api-test/src/test/java/model/dto/Pet.java:113-124 | `equals` is symmetric |
| PetDto.EqualsTransitive | api-test/src/test/java/model/dto/Pet.java:113-124 | `equals` is transitive |
| ApiResponseDto.ApiResponse.Empty | api-test/src/test/java/model/dto/ApiResponse.java:24-25 | the no-arg constructor leaves code, type and message unset |
| ApiResponseDto.ApiResponse.constructor | api-test/src/test/java/model/dto/ApiResponse.java:27-31 | the three-arg constructor stores code, type and message unchanged |
| ApiResponseDto.ApiResponse.SetCode | api-test/src/test/java/model/dto/ApiResponse.java:37-39 | `setCode` changes only the code |
| ApiResponseDto.ApiResponse.SetType | api-test/src/test/java/model/dto/ApiResponse.java:45-47 | `setType` changes only the type |
| ApiResponseDto.ApiResponse.SetMessage | api-test/src/test/java/model/dto/ApiResponse.java:53-55 | `setMessage` changes only the message |
| ApiResponseDto.ApiResponse.Equals | api-test/src/test/java/model/dto/ApiResponse.java:57-65 | `equals` holds iff the other response is non-null and code, type and message are null-safe equal |
| ApiResponseDto.ApiResponse.ToString | api-test/src/test/java/model/dto/ApiResponse.java:72-79 | `toString` starts with `ApiResponse{code=` and ends with `'}` |
| ApiResponseDto.EqualsReflexive | api-test/src/test/java/model/dto/ApiResponse.java:57-65 | `equals` is reflexive |
| ApiResponseDto.EqualsSymmetric | api-test/src/test/java/model/dto/ApiResponse.java:57-65 | `equals` is symmetric |
| ApiResponseDto.EqualsTransitive | api-test/src/test/java/model/dto/ApiResponse.java:57-65 | `equals` is transitive |
| ApiResponseDto.ToStringCode | api-test/src/test/java/model/dto/ApiResponse.java:72-79 | the code can be read back from `toString`, and the rest of the text is exactly `, type='<t>', message='<m>'}` |
| Headers.DictUpdate | load-test/utils/headers.py:36-39 | `dict.update`: keys of both maps; the new values win, every other key keeps its value |
| Headers.RequestHeaders | load-test/utils/headers.py:9-26 | exactly the keys User-Agent, Accept and Accept-Language; the User-Agent is one of the two listed browsers; Accept and Accept-Language are the fixed strings |
| Headers.AjaxHeaders | load-test/utils/headers.py:28-41 | exactly four keys; Accept is overridden with the JSON value and `X-Requested-With: XMLHttpRequest` is added; User-Agent and Accept-Language are those of the base map built in the same call |
| ScraperUrl.AbsoluteUrl | load-test/utils/scraper.py:56-57 | the result starts with "http"; an input starting with "http" is unchanged; otherwise the result is the host, one "/", then the input, with no second "/" added for an input that starts with one |
| ScraperUrl.AbsoluteUrlIdempotent | load-test/utils/scraper.py:56-57 | normalising twice is normalising once |
| ScraperUrl.RelativeUrlGetsOneSlash | load-test/utils/scraper.py:57 | a relative URL becomes the host + "/" + the path without its own leading "/" |
| ScraperUrl.NoDoubledSlash | load-test/utils/scraper.py:57 | unless the input itself starts with "//", the "/" after the host is not followed by another "/" |
| ScraperUrl.NonUrlWithHttpPrefixUnchanged | load-test/utils/scraper.py:56 | "httpfoo" passes unchanged |
| JobListSelection.JobList | selenium-automation/src/main/java/pages/QualityAssurancePage.java:716 | the job list is `jobListings` unless it is empty, then `qaJobElements` |
| JobListSelection.JobCount | selenium-automation/src/main/java/pages/QualityAssurancePage.java:714-724 | `getJobCount` is the size of `jobListings` when it is non-empty and the size of `qaJobElements` otherwise; it is zero iff both are empty |
| JobListSelection.ValidateJobCountConsistency | src/main/java/pages/QualityAssurancePage.java:478-489 | `validateJobCountConsistency` is true iff either list is non-empty |
| QaJobRules.VerifyJobsMatchCriteria | selenium-automation/src/main/java/pages/QualityAssurancePage.java:468-534 | false for an empty list, and false when a displayed card has no title element or a text whose reading throws; otherwise true iff `matchCount > 0` |
| QaJobRules.CardMatches | selenium-automation/src/main/java/pages/QualityAssurancePage.java:500-512 | the criteria on the trimmed texts, a missing element reading as "": title or department contains "quality assurance", and the location contains "istanbul" and "turkey" or "turkiye", ignoring case |
| QaJobRules.MatchCount | selenium-automation/src/main/java/pages/QualityAssurancePage.java:480-513 | `matchCount` after a prefix of the cards: one per displayed, titled card that matches |
| QaJobRules.MatchCountPositive | selenium-automation/src/main/java/pages/QualityAssurancePage.java:480-528 | `matchCount > 0` iff some displayed card with a title matches: title or department mentions "quality assurance", and the location mentions "istanbul" and "turkey" or "turkiye", ignoring case |
| QaJobRules.MatchCountSnoc | selenium-automation/src/main/java/pages/QualityAssurancePage.java:480-513 | each card adds one to `matchCount` exactly when it is displayed and matches |
| QaJobRules.MatchCountBound | selenium-automation/src/main/java/pages/QualityAssurancePage.java:478-513 | `matchCount` never exceeds the number of cards |
| QaJobRules.HiddenCardSkipped | selenium-automation/src/main/java/pages/QualityAssurancePage.java:481 | a hidden card changes neither the count nor whether titles were found |
| QaJobRules.NonMatchingCardTolerated | selenium-automation/src/main/java/pages/QualityAssurancePage.java:512-528 | a displayed non-matching card leaves the count, and so the verdict, unchanged: "at least one", not "all" |
| QaJobRules.NoLocationNeverMatches | selenium-automation/src/main/java/pages/QualityAssurancePage.java:501-510 | a card without a location element reads as location "" and never matches |
| QaJobRules.TurkeyOutsideIstanbulRejected | selenium-automation/src/main/java/pages/QualityAssurancePage.java:508-510 | a QA job in "Ankara, Turkey" does not match |
| QaOptionRules.FindVisibleText | selenium-automation/src/main/java/pages/QualityAssurancePage.java:741 | the selected option is the first whose trimmed text is the value; there is none iff no option has that text |
| QaOptionRules.FirstPartialMatch | selenium-automation/src/main/java/pages/QualityAssurancePage.java:743-745 | `filter(...).findFirst()` returns the first option whose lower-cased text contains the lower-cased value, or none iff no option does |
| QaOptionRules.SelectByVisibleTextOrPartial | selenium-automation/src/main/java/pages/QualityAssurancePage.java:739-754 | an exact option is selected when there is one; nothing is selected only when there is no exact option |
| QaOptionRules.ChooseSelect2Option | selenium-automation/src/main/java/pages/QualityAssurancePage.java:257-326 | pass 1 clicks the first by-id option whose trimmed text contains "Istanbul" and "Turkiye" or "Turkey". Failing that, pass 2 clicks the first displayed option that equals "Istanbul, Turkiye" ignoring case or passes the same case-sensitive test. With neither, the "not found" `RuntimeException` is raised, with exactly its own message |
| QaOptionRules.ChooseRegularLocation | src/main/java/pages/QualityAssurancePage.java:276-304 | the exact "Istanbul, Turkiye" option when present; otherwise the first option whose trimmed lower-cased text contains "istanbul"; the "could not select" `RuntimeException`, with exactly its own message, iff there is none |
| QaOptionRules.ApplyLocationFilter | selenium-automation/src/main/java/pages/QualityAssurancePage.java:228-370 | runs the Select2 or the plain search, and fails exactly when that search finds nothing. The caller sees the search's message as raised in the newer variant, whose `catch` at lines 365-368 does not catch it. In the older variant (src/main/java/pages/QualityAssurancePage.java:314-317) it carries the "Failed to apply location filter: " prefix: an error message has that prefix iff the variant is the older one |
| QaOptionRules.LocationFailure | selenium-automation/src/main/java/pages/QualityAssurancePage.java:365-368 | the message of a search's `RuntimeException` as each variant's `catch` passes it on: prefixed in the older variant, unchanged in the newer. Its effect on the caller is stated by `ApplyLocationFilter` |
| QaOptionRules.ManualDepartmentSelection | selenium-automation/src/main/java/pages/QualityAssurancePage.java:179-209 | the manual fallback succeeds iff some option's trimmed text contains the expected department, ignoring case |
| QaOptionRules.ApplyDepartmentFilter | selenium-automation/src/main/java/pages/QualityAssurancePage.java:398-437 | with no option selected beforehand, `getFirstSelectedOption` throws and the error is "Failed to apply department filter: " + its message. Otherwise the call fails exactly when nothing new can be selected and the earlier option fails the department check; the error is then the unwrapped assertion message naming that earlier option's trimmed text. A success is always an option that passes the check |
| QaOptionRules.ReselectFindsSame | src/main/java/pages/QualityAssurancePage.java:289-296 | re-selecting the first Istanbul option by its trimmed text selects that very option |
| QaOptionRules.SelectionPassesDepartmentCheck | selenium-automation/src/main/java/pages/QualityAssurancePage.java:739-754 | whatever `selectOptionByVisibleTextOrPartial` selects passes the check that `applyDepartmentFilter` applies next (lines 408-415) |
| QaOptionRules.DepartmentFilterAppliesSelection | src/main/java/pages/QualityAssurancePage.java:347-386 | when an option can be selected, `applyDepartmentFilter` succeeds with it if some option was selected beforehand, and fails with the "Failed to apply" error if none was |
| QaOptionRules.PartialSelectsFirstContaining | src/main/java/pages/QualityAssurancePage.java:491-506 | with no exact option, the partial fallback selects the first option, in list order, whose text contains the value ignoring case (when that text has no surrounding blanks) |
| QaOptionRules.NoPartialMatchSelectsNothing | src/main/java/pages/QualityAssurancePage.java:491-506 | with no option containing the value, ignoring case, nothing is selected |
| QaOptionRules.DepartmentMatchesIgnoresCase | selenium-automation/src/main/java/pages/QualityAssurancePage.java:199 | the department check (trimmed selected text contains the expected one, both lower-cased) ignores letter case on either side |
| QaOptionRules.AcceptedOptionContainsTurkey | src/main/java/pages/QualityAssurancePage.java:236-260 | an option the Select2 search accepts always passes the later "contains turkey/turkiye" check, applied to that option's text (the page reads the rendered selection's `title` attribute, taken here to show the clicked option's text) |
| QaOptionRules.Select2CaseAsymmetry | selenium-automation/src/main/java/pages/QualityAssurancePage.java:287-289 | "ISTANBUL, TURKIYE" is accepted but "istanbul, turkey" is not |
| QaOptionRules.TrimKeepsPartialMatch | selenium-automation/src/main/java/pages/QualityAssurancePage.java:744 | an option whose trimmed text contains the value, ignoring case, passes the untrimmed partial filter |
| QaOptionRules.Select2Accepts | src/main/java/pages/QualityAssurancePage.java:236-238 | the second Select2 pass takes a text equal to "Istanbul, Turkiye" ignoring case, or containing "Istanbul" and "Turkiye" or "Turkey" case-sensitively |
| QaOptionRules.MentionsIstanbul | src/main/java/pages/QualityAssurancePage.java:290-291 | the plain-select fallback test: the trimmed, lower-cased text contains "istanbul" |
| QaOptionRules.DepartmentMatches | selenium-automation/src/main/java/pages/QualityAssurancePage.java:413-415 | the department check: the trimmed selected text, lower-cased, contains the lower-cased expected department |
| LegacyQaJobRules.VerifyAllJobsMatchCriteria | src/main/java/pages/QualityAssurancePage.java:401-425 | false when the chosen list is empty; otherwise true iff every displayed job's text mentions "quality assurance" and "istanbul" or "turkey", ignoring case |
| LegacyQaJobRules.LegacyJobMatches | src/main/java/pages/QualityAssurancePage.java:413-415 | a job's text, lower-cased, contains "quality assurance" and "istanbul" or "turkey" |
| LegacyQaJobRules.AllDisplayedMatch | src/main/java/pages/QualityAssurancePage.java:409-419 | every displayed job has a readable text that matches |
| LegacyQaJobRules.NothingDisplayedPasses | src/main/java/pages/QualityAssurancePage.java:409-419 | a list with no displayed job passes |
| LegacyQaJobRules.OneMismatchFails | src/main/java/pages/QualityAssurancePage.java:409-419 | one displayed non-matching job fails the check |
| LegacyQaJobRules.HiddenJobIgnored | src/main/java/pages/QualityAssurancePage.java:411 | hidden jobs never change the verdict |
| LegacyQaJobRules.NoJobsFail | src/main/java/pages/QualityAssurancePage.java:478-489 | when `validateJobCountConsistency` is false the chosen list is empty, so the check at lines 406-407 fails |
| LegacyQaJobRules.TurkeyAloneSuffices | src/main/java/pages/QualityAssurancePage.java:413-415 | a QA job in "Ankara, Turkey" passes this check but not the newer variant's |
| JavaText.ParseDecimalRoundTrip | api-test/src/test/java/model/dto/ApiResponse.java:75 | the decimal text of an integer, sign included, parses back to it |
| JavaText.ReadShowInt | api-test/src/test/java/model/dto/ApiResponse.java:75 | a nullable `Integer` rendered by string concatenation (`null` or decimal) reads back to the same value |
| JavaText.LowerTrimCommute | selenium-automation/src/main/java/pages/QualityAssurancePage.java:110 | `trim` and `toLowerCase` commute |
| JavaText.TrimIsInnerSlice | selenium-automation/src/main/java/pages/QualityAssurancePage.java:500 | `trim` returns the inner slice of its input whose first and last characters are above U+0020, and drops only characters up to U+0020 at both ends |
| JavaText.Lower | selenium-automation/src/main/java/pages/QualityAssurancePage.java:506 | `toLowerCase` keeps the length and lower-cases each ASCII letter in place |
| JavaText.Contains | selenium-automation/src/main/java/pages/QualityAssurancePage.java:506 | `contains`: the needle occurs at some position of the text |

## Left out

- Awaitility polling in the API tests, the timed wait loops of
  `waitForDepartmentFilterToLoad` and every `WebDriverWait`: they are driven by
  wall-clock time and third-party retry semantics. The manual department
  fallback after the wait is modelled as `QaOptionRules.ManualDepartmentSelection`.
- WebDriver plumbing: element lookup, clicks, scrolling, screenshots, logging,
  `findLocationFilterElement`, `clickSeeAllQAJobs`, `clickViewRoleForFirstJob` and
  `isJobListPopulated`'s wait. Clicks are taken to succeed. Its result is the
  condition `ValidateJobCountConsistency` states.
- The Select2 by-id lookup failing with an exception is modelled as an empty
  by-id list, which leads to the same second pass.
- `QaOptionRules.FindVisibleText`: Selenium compares with whitespace-normalised
  text, collapsing inner runs of blanks too. The model compares the `trim`med text.
- The dead `allJobsMatch` flag in the newer `verifyAllJobsMatchCriteria`: it is
  updated but never read.
- `JavaText.Lower`: only ASCII letters are lower-cased. Locale-dependent and
  non-ASCII case mapping of `String.toLowerCase` is not modelled.
- `hashCode`, `Pet.toString` and the getters: `hashCode` needs Java's hash
  arithmetic, and `Pet.toString` needs `List.toString` and `Category.toString`.
- `Category.java` is not part of this model. A category is a value with
  field-wise equality.
- `PetDto.Pet.SetPhotoUrls`, `PetDto.Pet.SetTags`, `PetDto.Pet.Named` and
  `PetDto.Pet.constructor`: each list is stored as a value. The Java code keeps the
  caller's list reference, so later changes through the caller's list show in the
  pet; that aliasing is not captured. A `null` element inside `photoUrls` is not
  representable either.
- `QaOptionRules.AcceptedOptionContainsTurkey`: the page checks the `title`
  attribute of the rendered Select2 selection, not the clicked option. The lemma
  applies the check to the clicked option's text and so assumes the widget shows
  that text.
- `QaOptionRules.NoOptionsSelected`: Selenium adds driver and build details to the
  message of the exception `getFirstSelectedOption` throws. The model keeps only
  the message's first part.
- `Headers.RequestHeaders`: the order of dictionary keys is not modelled, and
  `random.choice` is the parameter `pick`.
- Jackson (de)serialisation of the DTOs, RestAssured calls, Faker data, the
  Locust tasks, payload tables, the cloudscraper session and its jitter sleep:
  these are I/O, randomness or third-party code.

=== FILE: api_response.dfy ===
/**
 * The `ApiResponse` data-transfer object of the pet-store API tests: a mutable record
 * of a nullable `Integer` code and nullable `String` type and message, with setters,
 * field-wise `equals` and a fixed `toString` shape.
 */
module ApiResponseDto {
  import opened Wrappers
  import opened JavaText

  /** The observable state of an `ApiResponse`: what `equals` compares. */
  datatype ApiResponseValue = ApiResponseValue(code: Option<Int32>, kind: Option<string>, message: Option<string>)

  const CodePrefix: string := "ApiResponse{code="
  const TypePrefix: string := ", type='"
  const MessagePrefix: string := "', message='"
  const ResponseSuffix: string := "'}"

  class ApiResponse {
    var code: Option<Int32>
    /** The `type` field (a reserved word in Dafny). */
    var kind: Option<string>
    var message: Option<string>

    /** `new ApiResponse()`: all three fields unset. */
    constructor Empty()
      ensures code == None && kind == None && message == None
    {
      code, kind, message := None, None, None;
    }

    /** `new ApiResponse(code, type, message)`: all three stored as given. */
    constructor (code: Option<Int32>, kind: Option<string>, message: Option<string>)
      ensures this.code == code && this.kind == kind && this.message == message
    {
      this.code, this.kind, this.message := code, kind, message;
    }

    /** `setCode`: replaces the code and nothing else. */
    method SetCode(code: Option<Int32>)
      modifies this
      ensures this.code == code && kind == old(kind) && message == old(message)
    {
      this.code := code;
    }

    /** `setType`: replaces the type and nothing else. */
    method SetType(kind: Option<string>)
      modifies this
      ensures this.kind == kind && code == old(code) && message == old(message)
    {
      this.kind := kind;
    }

    /** `setMessage`: replaces the message and nothing else. */
    method SetMessage(message: Option<string>)
      modifies this
      ensures this.message == message && code == old(code) && kind == old(kind)
    {
      this.message := message;
    }

    function Value(): ApiResponseValue
      reads this
    {
      ApiResponseValue(code, kind, message)
    }

    /**
     * `equals(o)`: true for the same object, false for null, otherwise the three
     * fields compared with the null-safe `Objects.equals`. The result is value equality.
     */
    function Equals(o: ApiResponse?): (r: bool)
      reads this, o
      ensures r <==> o != null && Value() == o.Value()
    {
      this == o || (o != null && code == o.code && kind == o.kind && message == o.message)
    }

    /** `toString()`: `ApiResponse{code=<c>, type='<t>', message='<m>'}`, `null` for an unset field. */
    function ToString(): (r: string)
      reads this
      ensures CodePrefix <= r
      ensures |r| >= |CodePrefix| + |ResponseSuffix| && r[|r| - |ResponseSuffix|..] == ResponseSuffix
    {
      CodePrefix + ShowInt(code) + TypePrefix + ShowStr(kind) + MessagePrefix + ShowStr(message) + ResponseSuffix
    }
  }

  // ----- lemmas -----

  /** `equals` is reflexive. */
  lemma EqualsReflexive(a: ApiResponse)
    ensures a.Equals(a)
  {
  }

  /** `equals` is symmetric. */
  lemma EqualsSymmetric(a: ApiResponse, b: ApiResponse)
    ensures a.Equals(b) == b.Equals(a)
  {
  }

  /** `equals` is transitive. */
  lemma EqualsTransitive(a: ApiResponse, b: ApiResponse, c: ApiResponse)
    requires a.Equals(b) && b.Equals(c)
    ensures a.Equals(c)
  {
  }

  /**
   * The code can be read back from `toString()`: it is the text up to the first
   * comma after `ApiResponse{code=`, and the rest is the type and message part.
   */
  lemma ToStringCode(a: ApiResponse)
    ensures var r := a.ToString();
      var codeText := UpTo(r[|CodePrefix|..], ',');
      && ReadInt(codeText) == (if a.code.None? then None else Some(a.code.value))
      && r[|CodePrefix| + |codeText|..] ==
           TypePrefix + ShowStr(a.kind) + MessagePrefix + ShowStr(a.message) + ResponseSuffix
  {
    var r := a.ToString();
    var codeText := ShowInt(a.code);
    var fields := ShowStr(a.kind) + MessagePrefix + ShowStr(a.message) + ResponseSuffix;
    var rest := TypePrefix[1..] + fields;
    ToStringAfterCode(a);
    assert ',' !in codeText by {
      if a.code.Some? {
        DecimalStringChars(a.code.value);
      }
    }
    assert UpTo(r[|CodePrefix|..], ',') == codeText by {
      UpToConcat(codeText, ',', rest);
    }
    ReadShowInt(a.code);
  }

  /** `toString()` is the prefix, the printed code, then the comma that opens `, type='`. */
  lemma ToStringAfterCode(a: ApiResponse)
    ensures var r := a.ToString();
      var codeText := ShowInt(a.code);
      var fields := ShowStr(a.kind) + MessagePrefix + ShowStr(a.message) + ResponseSuffix;
      && |CodePrefix| + |codeText| <= |r|
      && r[|CodePrefix|..] == codeText + [','] + (TypePrefix[1..] + fields)
      && r[|CodePrefix| + |codeText|..] == TypePrefix + fields
  {
    var r := a.ToString();
    var codeText := ShowInt(a.code);
    var fields := ShowStr(a.kind) + MessagePrefix + ShowStr(a.message) + ResponseSuffix;
    assert TypePrefix + fields == [','] + (TypePrefix[1..] + fields);
    assert r == CodePrefix + codeText + (TypePrefix + fields);
  }
}

=== FILE: headers.dfy ===
/**
 * Request headers of the load test: a base header map with a randomly chosen
 * browser User-Agent, and an AJAX variant that copies it and updates two keys.
 * The random choice is the parameter `pick`, the index `random.choice` drew.
 */
module Headers {

  const UserAgents: seq<string> := [
    "Mozilla/5.0 (Macintosh; Intel Mac OS X 10_15_7) AppleWebKit/537.36 (KHTML, like Gecko) Chrome/138.0.0.0 Safari/537.36",
    "Mozilla/5.0 (Windows NT 10.0; Win64; x64) AppleWebKit/537.36 (KHTML, like Gecko) Chrome/138.0.0.0 Safari/537.36"
  ]

  const UserAgentKey: string := "User-Agent"
  const AcceptKey: string := "Accept"
  const AcceptLanguageKey: string := "Accept-Language"
  const RequestedWithKey: string := "X-Requested-With"

  const PageAccept: string := "text/html,application/xhtml+xml,application/xml;q=0.9,*/*;q=0.8"
  const AcceptLanguage: string := "en-US,en;q=0.5"
  const AjaxAccept: string := "application/json, text/javascript, */*; q=0.01"
  const XmlHttpRequest: string := "XMLHttpRequest"

  /** Python's `d.update(m)`: every key of `m` is set to its value in `m`; the other keys of `d` keep theirs. */
  function DictUpdate(d: map<string, string>, m: map<string, string>): (r: map<string, string>)
    ensures r.Keys == d.Keys + m.Keys
    ensures forall k :: k in m ==> r[k] == m[k]
    ensures forall k :: k in d && k !in m ==> r[k] == d[k]
  {
    d + m
  }

  /**
   * `get_request_headers()`: exactly User-Agent, Accept and Accept-Language; the
   * User-Agent is one of the two listed browsers, the other two values are fixed.
   */
  function RequestHeaders(pick: nat): (h: map<string, string>)
    requires pick < |UserAgents|
    ensures h.Keys == {UserAgentKey, AcceptKey, AcceptLanguageKey} && |h| == 3
    ensures h[UserAgentKey] in UserAgents
    ensures h[AcceptKey] == PageAccept && h[AcceptLanguageKey] == AcceptLanguage
  {
    map[UserAgentKey := UserAgents[pick], AcceptKey := PageAccept, AcceptLanguageKey := AcceptLanguage]
  }

  /**
   * `get_ajax_headers()`: the base headers of the same call, with Accept overridden
   * for JSON and X-Requested-With added; User-Agent and Accept-Language are kept.
   */
  method AjaxHeaders(pick: nat) returns (h: map<string, string>)
    requires pick < |UserAgents|
    ensures h.Keys == {UserAgentKey, AcceptKey, AcceptLanguageKey, RequestedWithKey} && |h| == 4
    ensures h[AcceptKey] == AjaxAccept && h[RequestedWithKey] == XmlHttpRequest
    ensures h[UserAgentKey] == RequestHeaders(pick)[UserAgentKey]
    ensures h[AcceptLanguageKey] == RequestHeaders(pick)[AcceptLanguageKey]
    ensures h[UserAgentKey] in UserAgents
  {
    h := RequestHeaders(pick);
    h := DictUpdate(h, map[AcceptKey := AjaxAccept, RequestedWithKey := XmlHttpRequest]);
  }
}

=== FILE: http_status_code.dfy ===
/**
 * The HTTP status-code table of the API tests: fifteen (code, reason phrase)
 * constants, lookup by number, the 2xx / 4xx / 5xx classifiers (the classes of
 * sections 15.3, 15.5 and 15.6 of RFC 9110) and the "code description" rendering.
 * The reason phrases are the table's own (422 is "Unprocessable Entity").
 */
module HttpStatus {
  import Wrappers
  import opened JavaText

  datatype StatusCode =
    // 2xx
    | Ok | Created | Accepted | NoContent
    // 4xx
    | BadRequest | Unauthorized | Forbidden | NotFound | MethodNotAllowed | Conflict
    | UnprocessableEntity
    // 5xx
    | InternalServerError | BadGateway | ServiceUnavailable | GatewayTimeout
  {
    /** The numeric status code of the constant. */
    function Code(): int
    {
      match this
      case Ok => 200
      case Created => 201
      case Accepted => 202
      case NoContent => 204
      case BadRequest => 400
      case Unauthorized => 401
      case Forbidden => 403
      case NotFound => 404
      case MethodNotAllowed => 405
      case Conflict => 409
      case UnprocessableEntity => 422
      case InternalServerError => 500
      case BadGateway => 502
      case ServiceUnavailable => 503
      case GatewayTimeout => 504
    }

    /** The reason phrase of the constant. */
    function Description(): string
    {
      match this
      case Ok => "OK"
      case Created => "Created"
      case Accepted => "Accepted"
      case NoContent => "No Content"
      case BadRequest => "Bad Request"
      case Unauthorized => "Unauthorized"
      case Forbidden => "Forbidden"
      case NotFound => "Not Found"
      case MethodNotAllowed => "Method Not Allowed"
      case Conflict => "Conflict"
      case UnprocessableEntity => "Unprocessable Entity"
      case InternalServerError => "Internal Server Error"
      case BadGateway => "Bad Gateway"
      case ServiceUnavailable => "Service Unavailable"
      case GatewayTimeout => "Gateway Timeout"
    }

    /** `ordinal()`: the position of the constant in `values()`. */
    function Ordinal(): (k: nat)
      ensures k < |Values| && Values[k] == this
    {
      match this
      case Ok => 0
      case Created => 1
      case Accepted => 2
      case NoContent => 3
      case BadRequest => 4
      case Unauthorized => 5
      case Forbidden => 6
      case NotFound => 7
      case MethodNotAllowed => 8
      case Conflict => 9
      case UnprocessableEntity => 10
      case InternalServerError => 11
      case BadGateway => 12
      case ServiceUnavailable => 13
      case GatewayTimeout => 14
    }

    /** `isSuccess()`: the code is in the 2xx range. */
    predicate IsSuccess()
    {
      Code() >= 200 && Code() < 300
    }

    /** `isClientError()`: the code is in the 4xx range. */
    predicate IsClientError()
    {
      Code() >= 400 && Code() < 500
    }

    /** `isServerError()`: the code is in the 5xx range. */
    predicate IsServerError()
    {
      Code() >= 500 && Code() < 600
    }

    /** `toString()`: the decimal code, one space, the reason phrase. */
    function ToString(): (r: string)
      ensures |r| > 4 && r[3] == ' '
      ensures r[4..] == Description()
    {
      LeadingDigitOfThreeDigits(Code());
      DecimalString(Code()) + " " + Description()
    }
  }

  /** `values()`: every constant, in declaration order. */
  const Values: seq<StatusCode> := [
    Ok, Created, Accepted, NoContent,
    BadRequest, Unauthorized, Forbidden, NotFound, MethodNotAllowed, Conflict, UnprocessableEntity,
    InternalServerError, BadGateway, ServiceUnavailable, GatewayTimeout
  ]

  /** The first constant of `xs`, in order, whose code is `code`. */
  function LookupIn(xs: seq<StatusCode>, code: int): Wrappers.Option<StatusCode>
  {
    if |xs| == 0 then Wrappers.None
    else if xs[0].Code() == code then Wrappers.Some(xs[0])
    else LookupIn(xs[1..], code)
  }

  /** `fromCode` as a function, for use in lemmas; `FromCode` computes the same result. */
  function Lookup(code: int): Wrappers.Option<StatusCode>
  {
    LookupIn(Values, code)
  }

  /**
   * `fromCode(code)`: scans `values()` in order and returns the first constant with
   * that code, or null (`None`) when there is none.
   */
  method FromCode(code: int) returns (r: Wrappers.Option<StatusCode>)
    ensures forall s: StatusCode :: r == Wrappers.Some(s) <==> s.Code() == code
    ensures r == Lookup(code)
  {
    LookupSpec(code);
    var values := Values;
    for i := 0 to |values|
      invariant forall k :: 0 <= k < i ==> values[k].Code() != code
    {
      if values[i].Code() == code {
        CodeInjective(values[i]);
        assert Lookup(code) == Wrappers.Some(values[i]);
        return Wrappers.Some(values[i]);
      }
    }
    forall s: StatusCode ensures s.Code() != code {
      assert values[s.Ordinal()] == s;
    }
    return Wrappers.None;
  }

  // ----- lemmas -----

  /** The declared codes are pairwise distinct: a code names at most one constant. */
  lemma CodeInjective(s: StatusCode)
    ensures forall t: StatusCode :: t.Code() == s.Code() ==> t == s
  {
  }

  /** `LookupIn` finds a constant of the list with that code, or reports that there is none. */
  lemma {:induction false} LookupInSpec(xs: seq<StatusCode>, code: int)
    ensures LookupIn(xs, code).Some? ==> LookupIn(xs, code).value in xs && LookupIn(xs, code).value.Code() == code
    ensures LookupIn(xs, code).None? <==> forall k :: 0 <= k < |xs| ==> xs[k].Code() != code
  {
    if |xs| > 0 && xs[0].Code() != code {
      LookupInSpec(xs[1..], code);
      assert forall k :: 1 <= k < |xs| ==> xs[k] == xs[1..][k - 1];
    }
  }

  /** `fromCode(c)` is the constant whose code is `c`, and null exactly when no constant has it (e.g. 418). */
  lemma LookupSpec(code: int)
    ensures forall s: StatusCode :: Lookup(code) == Wrappers.Some(s) <==> s.Code() == code
  {
    LookupInSpec(Values, code);
    forall s: StatusCode | s.Code() == code ensures Lookup(code) == Wrappers.Some(s) {
      CodeInjective(s);
      assert Values[s.Ordinal()] == s;
    }
  }

  /** Round trip: looking up a constant's own code gives back that constant. */
  lemma LookupRoundTrip(s: StatusCode)
    ensures Lookup(s.Code()) == Wrappers.Some(s)
  {
    LookupSpec(s.Code());
  }

  /** No constant has code 418, so `fromCode(418)` is null. */
  lemma LookupTeapotIsNull()
    ensures Lookup(418) == Wrappers.None
  {
    LookupInSpec(Values, 418);
  }

  /** Every declared constant falls in exactly one of the three classes. */
  lemma ExactlyOneClass(s: StatusCode)
    ensures s.IsSuccess() || s.IsClientError() || s.IsServerError()
    ensures s.IsSuccess() ==> !s.IsClientError() && !s.IsServerError()
    ensures s.IsClientError() ==> !s.IsServerError()
  {
  }

  /** The decimal form of a three-digit number is three digits, led by its hundreds digit. */
  lemma LeadingDigitOfThreeDigits(n: int)
    requires 100 <= n < 1000
    ensures |DecimalString(n)| == 3
    ensures DecimalString(n)[0] == DigitChar(n / 100)
  {
    assert NatDigits(n / 100) == [DigitChar(n / 100)];
    assert NatDigits(n / 10) == NatDigits(n / 10 / 10) + [DigitChar(n / 10 % 10)];
    assert n / 10 / 10 == n / 100;
  }

  /**
   * The classifiers agree with the class of section 15 of RFC 9110, read off the
   * rendered status line: its first character is the class digit.
   */
  lemma ClassIsLeadingDigit(s: StatusCode)
    ensures s.IsSuccess() <==> s.ToString()[0] == '2'
    ensures s.IsClientError() <==> s.ToString()[0] == '4'
    ensures s.IsServerError() <==> s.ToString()[0] == '5'
  {
    LeadingDigitOfThreeDigits(s.Code());
    assert s.ToString()[0] == DecimalString(s.Code())[0];
  }

  /** Round trip: the number before the first space of `toString()` looks up the same constant. */
  lemma ToStringRoundTrip(s: StatusCode)
    ensures Lookup(ParseDecimal(UpTo(s.ToString(), ' '))) == Wrappers.Some(s)
  {
    var digits := DecimalString(s.Code());
    DecimalStringChars(s.Code());
    assert ' ' !in digits;
    assert s.ToString() == digits + [' '] + s.Description();
    UpToConcat(digits, ' ', s.Description());
    ParseDecimalRoundTrip(s.Code());
    LookupRoundTrip(s);
  }
}

=== FILE: java_text.dfy ===
/**
 * The few `java.lang.String` / `Integer` operations the modelled code relies on:
 * `trim`, `toLowerCase`, `equalsIgnoreCase`, `contains`, `startsWith`, decimal
 * rendering of an `int`, and string concatenation of a possibly-null value.
 */
module JavaText {
  import opened Wrappers

  /** A Java `int` (and the value of a non-null `Integer`). */
  type Int32 = x: int | -0x8000_0000 <= x < 0x8000_0000

  /** `String.trim` strips every character whose code is at most U+0020. */
  predicate IsTrimmed(c: char)
  {
    c <= ' '
  }

  function TrimStart(s: string): (r: string)
    ensures |r| <= |s|
    ensures r == [] || !IsTrimmed(r[0])
    ensures forall k :: 0 <= k < |s| - |r| ==> IsTrimmed(s[k])
  {
    if |s| > 0 && IsTrimmed(s[0]) then TrimStart(s[1..]) else s
  }

  function TrimEnd(s: string): (r: string)
    ensures |r| <= |s|
    ensures r == [] || !IsTrimmed(r[|r| - 1])
    ensures forall k :: |r| <= k < |s| ==> IsTrimmed(s[k])
  {
    if |s| > 0 && IsTrimmed(s[|s| - 1]) then TrimEnd(s[..|s| - 1]) else s
  }

  /** `TrimStart` drops a prefix: what is left is a suffix of the input. */
  lemma {:induction false} TrimStartIsSuffix(s: string)
    ensures TrimStart(s) == s[|s| - |TrimStart(s)|..]
  {
    if |s| > 0 && IsTrimmed(s[0]) {
      TrimStartIsSuffix(s[1..]);
    }
  }

  /** `TrimEnd` drops a suffix: what is left is a prefix of the input. */
  lemma {:induction false} TrimEndIsPrefix(s: string)
    ensures TrimEnd(s) == s[..|TrimEnd(s)|]
  {
    if |s| > 0 && IsTrimmed(s[|s| - 1]) {
      TrimEndIsPrefix(s[..|s| - 1]);
    }
  }

  /** `String.trim()`. */
  function Trim(s: string): string
  {
    TrimEnd(TrimStart(s))
  }

  /**
   * `trim` returns the inner slice of its input that starts and ends with a
   * character above U+0020, and everything it drops at either end is at most U+0020.
   */
  lemma TrimIsInnerSlice(s: string)
    ensures |s| - |TrimStart(s)| + |Trim(s)| <= |s|
    ensures Trim(s) == s[|s| - |TrimStart(s)|..|s| - |TrimStart(s)| + |Trim(s)|]
    ensures forall k :: 0 <= k < |s| - |TrimStart(s)| ==> IsTrimmed(s[k])
    ensures forall k :: |s| - |TrimStart(s)| + |Trim(s)| <= k < |s| ==> IsTrimmed(s[k])
    ensures Trim(s) == [] || (!IsTrimmed(Trim(s)[0]) && !IsTrimmed(Trim(s)[|Trim(s)| - 1]))
  {
    var t := TrimStart(s);
    var r := TrimEnd(t);
    var start := |s| - |t|;
    assert r == s[start..start + |r|] by {
      TrimStartIsSuffix(s);
      TrimEndIsPrefix(t);
      forall k | 0 <= k < |r|
        ensures r[k] == s[start + k]
      {
        assert r[k] == t[k];
      }
    }
    assert forall k :: start + |r| <= k < |s| ==> IsTrimmed(s[k]) by {
      TrimStartIsSuffix(s);
      forall k | start + |r| <= k < |s|
        ensures IsTrimmed(s[k])
      {
        assert s[k] == t[k - start];
      }
    }
    assert r == [] || !IsTrimmed(r[0]) by {
      TrimEndIsPrefix(t);
      if r != [] {
        assert r[0] == t[0];
      }
    }
  }

  /** `Character.toLowerCase` restricted to ASCII letters. */
  function LowerChar(c: char): char
  {
    if 'A' <= c <= 'Z' then (c as int + 32) as char else c
  }

  /** `String.toLowerCase()` (ASCII letters only). */
  function Lower(s: string): (r: string)
    ensures |r| == |s|
    ensures forall i :: 0 <= i < |s| ==> r[i] == LowerChar(s[i])
  {
    seq(|s|, i requires 0 <= i < |s| => LowerChar(s[i]))
  }

  /** `String.equalsIgnoreCase` (ASCII letters only). */
  predicate EqualsIgnoreCase(a: string, b: string)
  {
    Lower(a) == Lower(b)
  }

  /** `sub` occurs in `s` starting at index `i`. */
  predicate OccursAt(s: string, sub: string, i: nat)
  {
    i + |sub| <= |s| && s[i..i + |sub|] == sub
  }

  /** `String.contains`: `sub` occurs as a contiguous piece of `s`. */
  predicate Contains(s: string, sub: string)
  {
    exists i: nat | i <= |s| :: OccursAt(s, sub, i)
  }

  /** `String.startsWith` / Python `str.startswith`. */
  predicate StartsWith(s: string, prefix: string)
  {
    prefix <= s
  }

  function DigitChar(d: nat): char
    requires d < 10
  {
    "0123456789"[d]
  }

  function DigitValue(c: char): nat
  {
    if '0' <= c <= '9' then c as int - '0' as int else 0
  }

  /** The decimal digits of `n`, most significant first, without leading zeros. */
  function NatDigits(n: nat): (r: string)
    ensures |r| > 0
    ensures forall i :: 0 <= i < |r| ==> '0' <= r[i] <= '9'
    decreases n
  {
    if n < 10 then [DigitChar(n)] else NatDigits(n / 10) + [DigitChar(n % 10)]
  }

  /** `Integer.toString(n)`, as used by `"" + n`. */
  function DecimalString(n: int): string
  {
    if n < 0 then "-" + NatDigits(-n) else NatDigits(n)
  }

  /** Reads back a string of decimal digits. */
  function ParseNat(s: string): nat
  {
    if |s| == 0 then 0 else ParseNat(s[..|s| - 1]) * 10 + DigitValue(s[|s| - 1])
  }

  /** Reads back an optionally signed decimal. */
  function ParseDecimal(s: string): int
  {
    if |s| > 0 && s[0] == '-' then 0 - ParseNat(s[1..]) else ParseNat(s)
  }

  /** String concatenation of a nullable `Integer`: `"null"` or its decimal form. */
  function ShowInt(x: Option<Int32>): string
  {
    match x
    case None => "null"
    case Some(n) => DecimalString(n)
  }

  /** Reads back what `ShowInt` produced. */
  function ReadInt(s: string): Option<int>
  {
    if s == "null" then None else Some(ParseDecimal(s))
  }

  /** String concatenation of a nullable `String`: `"null"` or the string itself. */
  function ShowStr(x: Option<string>): string
  {
    x.GetOr("null")
  }

  /** The longest prefix of `s` without the character `stop`. */
  function UpTo(s: string, stop: char): (r: string)
    ensures r <= s && stop !in r
  {
    if |s| == 0 || s[0] == stop then [] else [s[0]] + UpTo(s[1..], stop)
  }

  // ----- lemmas -----

  /** Decimal rendering is undone by parsing: no digit is lost or altered. */
  lemma {:induction false} ParseNatDigits(n: nat)
    ensures ParseNat(NatDigits(n)) == n
    decreases n
  {
    var s := NatDigits(n);
    if n >= 10 {
      ParseNatDigits(n / 10);
      assert s[..|s| - 1] == NatDigits(n / 10);
      assert DigitValue(s[|s| - 1]) == n % 10;
    } else {
      assert DigitValue(s[0]) == n;
    }
  }

  /** `Integer.toString` is undone by parsing, for every `int`, negative ones included. */
  lemma ParseDecimalRoundTrip(n: int)
    ensures ParseDecimal(DecimalString(n)) == n
  {
    if n < 0 {
      var d := NatDigits(-n);
      assert DecimalString(n) == "-" + d;
      assert ("-" + d)[1..] == d;
      ParseNatDigits(-n);
    } else {
      var d := NatDigits(n);
      assert d[0] != '-';
      ParseNatDigits(n);
    }
  }

  /** A decimal rendering holds only digits and possibly a leading minus sign. */
  lemma DecimalStringChars(n: int)
    ensures |DecimalString(n)| > 0
    ensures forall c :: c in DecimalString(n) ==> c == '-' || '0' <= c <= '9'
  {
    var d := NatDigits(if n < 0 then -n else n);
    forall c | c in DecimalString(n) ensures c == '-' || '0' <= c <= '9' {
      if n < 0 && c != '-' {
        assert c in d;
      }
    }
  }

  /** A nullable `Integer` is recovered from its rendering. */
  lemma ReadShowInt(x: Option<Int32>)
    ensures ReadInt(ShowInt(x)) == (if x.None? then None else Some(x.value))
  {
    if x.Some? {
      DecimalStringChars(x.value);
      assert ShowInt(x)[0] != 'n';
      ParseDecimalRoundTrip(x.value);
    }
  }

  /** `UpTo` stops exactly at the first occurrence of `stop`. */
  lemma {:induction false} UpToConcat(a: string, stop: char, b: string)
    requires stop !in a
    ensures UpTo(a + [stop] + b, stop) == a
  {
    if |a| > 0 {
      assert (a + [stop] + b)[1..] == a[1..] + [stop] + b;
      UpToConcat(a[1..], stop, b);
    } else {
      assert (a + [stop] + b)[0] == stop;
    }
  }

  /** Lowering works character by character, so it distributes over concatenation. */
  lemma LowerConcat(a: string, b: string)
    ensures Lower(a + b) == Lower(a) + Lower(b)
  {
  }

  /** Lowering twice is lowering once. */
  lemma LowerIdempotent(s: string)
    ensures Lower(Lower(s)) == Lower(s)
  {
  }

  /** Every string contains itself. */
  lemma ContainsSelf(s: string)
    ensures Contains(s, s)
  {
    assert OccursAt(s, s, 0);
  }

  /** A string cannot contain a longer one; in particular "" contains only "". */
  lemma ContainsNeedsRoom(s: string, sub: string)
    requires |s| < |sub|
    ensures !Contains(s, sub)
  {
  }

  /** Lowering keeps an occurrence: `s.contains(sub)` implies the same ignoring case. */
  lemma ContainsLower(s: string, sub: string)
    requires Contains(s, sub)
    ensures Contains(Lower(s), Lower(sub))
  {
    var i: nat :| i <= |s| && OccursAt(s, sub, i);
    assert Lower(s)[i..i + |sub|] == Lower(sub) by {
      forall k | 0 <= k < |sub| ensures Lower(s)[i..i + |sub|][k] == Lower(sub)[k] {
        assert s[i..i + |sub|][k] == sub[k];
      }
    }
    assert OccursAt(Lower(s), Lower(sub), i);
  }

  /** Lowering does not touch the characters `trim` removes, so the two commute. */
  lemma LowerTrimCommute(s: string)
    ensures Lower(Trim(s)) == Trim(Lower(s))
  {
    LowerTrimStart(s);
    LowerTrimEnd(TrimStart(s));
  }

  lemma {:induction false} LowerTrimStart(s: string)
    ensures Lower(TrimStart(s)) == TrimStart(Lower(s))
  {
    if |s| > 0 && IsTrimmed(s[0]) {
      assert Lower(s)[0] == s[0];
      assert Lower(s)[1..] == Lower(s[1..]);
      LowerTrimStart(s[1..]);
      assert TrimStart(Lower(s)) == TrimStart(Lower(s[1..]));
    } else if |s| > 0 {
      assert !IsTrimmed(Lower(s)[0]);
    }
  }

  lemma {:induction false} LowerTrimEnd(s: string)
    ensures Lower(TrimEnd(s)) == TrimEnd(Lower(s))
  {
    var n := |s|;
    if n > 0 && IsTrimmed(s[n - 1]) {
      var front := s[..n - 1];
      assert Lower(s)[n - 1] == s[n - 1];
      assert Lower(s)[..n - 1] == Lower(front);
      LowerTrimEnd(front);
      assert TrimEnd(Lower(s)) == TrimEnd(Lower(front));
    } else if n > 0 {
      assert !IsTrimmed(Lower(s)[n - 1]);
    }
  }

  /** A text contains its own trimmed form, also after lower-casing. */
  lemma TrimLowerContains(s: string)
    ensures Contains(Lower(s), Lower(Trim(s)))
  {
    var t := Trim(s);
    var start := |s| - |TrimStart(s)|;
    TrimStartIsSuffix(s);
    TrimEndIsPrefix(TrimStart(s));
    assert t == s[start..start + |t|];
    assert OccursAt(s, t, start);
    ContainsLower(s, t);
  }

  /** Containment is transitive. */
  lemma ContainsTransitive(a: string, b: string, c: string)
    requires Contains(a, b) && Contains(b, c)
    ensures Contains(a, c)
  {
    var i: nat :| i <= |a| && OccursAt(a, b, i);
    var k: nat :| k <= |b| && OccursAt(b, c, k);
    forall t | 0 <= t < |c|
      ensures a[i + k + t] == c[t]
    {
      assert a[i + k + t] == a[i..i + |b|][k + t] == b[k + t];
      assert b[k + t] == b[k..k + |c|][t];
    }
    assert a[i + k..i + k + |c|] == c;
    assert OccursAt(a, c, i + k);
  }

  /** A text that lacks the first character of `sub` does not contain `sub`. */
  lemma ContainsNeedsChar(s: string, sub: string)
    requires |sub| > 0 && sub[0] !in s
    ensures !Contains(s, sub)
  {
    forall i: nat | i <= |s|
      ensures !OccursAt(s, sub, i)
    {
      if i < |s| {
        assert s[i] in s;
      }
    }
  }
}

=== FILE: job_lists.dfy ===
/**
 * Which job list the QA careers page looks at, and its count: the listing cards
 * when there are any, the QA-specific elements otherwise. Both page-object
 * variants of the careers page choose and count the same way.
 */
module JobListSelection {

  /** `jobListings.isEmpty() ? qaJobElements : jobListings`. */
  function JobList<T>(jobListings: seq<T>, qaJobElements: seq<T>): (jobs: seq<T>)
    ensures |jobListings| > 0 ==> jobs == jobListings
    ensures |jobListings| == 0 ==> jobs == qaJobElements
  {
    if |jobListings| == 0 then qaJobElements else jobListings
  }

  /** `getJobCount()`: the size of the chosen list; zero only when both lists are empty. */
  function JobCount<T>(jobListings: seq<T>, qaJobElements: seq<T>): (n: nat)
    ensures |jobListings| > 0 ==> n == |jobListings|
    ensures |jobListings| == 0 ==> n == |qaJobElements|
    ensures n >= |jobListings|
    ensures n == 0 <==> |jobListings| == 0 && |qaJobElements| == 0
  {
    |JobList(jobListings, qaJobElements)|
  }

  /**
   * `validateJobCountConsistency()`: the count is positive, which is the same
   * condition as "either list is non-empty" (what `isJobListPopulated` returns).
   */
  function ValidateJobCountConsistency<T>(jobListings: seq<T>, qaJobElements: seq<T>): (ok: bool)
    ensures ok <==> |jobListings| > 0 || |qaJobElements| > 0
  {
    JobCount(jobListings, qaJobElements) > 0
  }
}

=== FILE: legacy_qa_job_rules.dfy ===
/**
 * The job-listing check of the older careers page object: the jobs are the listing
 * cards, or the QA-specific elements when there are no cards; each displayed job's
 * whole text must mention "quality assurance" and either "istanbul" or "turkey",
 * ignoring case. Unlike the newer variant, one non-matching displayed job fails the
 * check, and a list with no displayed job passes it.
 */
module LegacyQaJobRules {
  import opened Wrappers
  import opened JavaText
  import opened JobListSelection
  import QaJobRules

  /** A job element: whether it is displayed, and its text (`None`: reading it throws). */
  datatype ListedJob = ListedJob(displayed: bool, text: Option<string>)

  /** The criteria on a job's text: QA, and Istanbul or Turkey (either one suffices). */
  predicate LegacyJobMatches(jobText: string)
  {
    var l := Lower(jobText);
    Contains(l, "quality assurance") && (Contains(l, "istanbul") || Contains(l, "turkey"))
  }

  /** Every displayed job has readable text and that text matches. */
  predicate AllDisplayedMatch(jobs: seq<ListedJob>)
  {
    forall i :: 0 <= i < |jobs| && jobs[i].displayed ==>
      jobs[i].text.Some? && LegacyJobMatches(jobs[i].text.value)
  }

  /**
   * `verifyAllJobsMatchCriteria`: false when the chosen list is empty; otherwise
   * true exactly when every displayed job matches. Reading a displayed job's text
   * throwing is caught and reported as false.
   */
  method VerifyAllJobsMatchCriteria(jobListings: seq<ListedJob>, qaJobElements: seq<ListedJob>) returns (ok: bool)
    ensures ok <==> |JobList(jobListings, qaJobElements)| > 0 && AllDisplayedMatch(JobList(jobListings, qaJobElements))
  {
    var jobs := JobList(jobListings, qaJobElements);
    if |jobs| == 0 {
      return false;
    }
    var allJobsMatch := true;
    for i := 0 to |jobs|
      invariant allJobsMatch <==> AllDisplayedMatch(jobs[..i])
    {
      var job := jobs[i];
      if !job.displayed {
        continue;
      }
      if job.text.None? {
        assert !AllDisplayedMatch(jobs) by {
          assert jobs[i].displayed && jobs[i].text.None?;
        }
        return false;
      }
      var jobText := job.text.value;
      var l := Lower(jobText);
      var hasQA := Contains(l, "quality assurance");
      var hasLocation := Contains(l, "istanbul") || Contains(l, "turkey");
      if !hasQA || !hasLocation {
        allJobsMatch := false;
      }
    }
    assert jobs[..|jobs|] == jobs;
    return allJobsMatch;
  }

  // ----- lemmas -----

  /** "All displayed" holds vacuously: a non-empty list with nothing displayed passes. */
  lemma NothingDisplayedPasses(jobs: seq<ListedJob>)
    requires forall i :: 0 <= i < |jobs| ==> !jobs[i].displayed
    ensures AllDisplayedMatch(jobs)
  {
  }

  /** One displayed job that does not match fails the check, wherever it is in the list. */
  lemma OneMismatchFails(jobs: seq<ListedJob>, k: nat)
    requires k < |jobs| && jobs[k].displayed
    requires jobs[k].text.Some? && !LegacyJobMatches(jobs[k].text.value)
    ensures !AllDisplayedMatch(jobs)
  {
  }

  /** Appending a hidden job never changes the verdict. */
  lemma HiddenJobIgnored(jobs: seq<ListedJob>, hidden: ListedJob)
    requires !hidden.displayed
    ensures AllDisplayedMatch(jobs + [hidden]) == AllDisplayedMatch(jobs)
  {
    assert forall i :: 0 <= i < |jobs| ==> (jobs + [hidden])[i] == jobs[i];
  }

  /** With no jobs in either list (the count check fails), the criteria check fails too. */
  lemma NoJobsFail(jobListings: seq<ListedJob>, qaJobElements: seq<ListedJob>)
    requires !ValidateJobCountConsistency(jobListings, qaJobElements)
    ensures |JobList(jobListings, qaJobElements)| == 0
  {
  }

  /**
   * The location test here is an "or": a QA job in Turkey outside Istanbul
   * passes, while the newer variant's "istanbul and (turkey or turkiye)" rejects
   * the same job.
   */
  lemma TurkeyAloneSuffices()
    ensures LegacyJobMatches("Quality Assurance, Ankara, Turkey")
    ensures !QaJobRules.CardMatches("Quality Assurance", None, Some("Ankara, Turkey"))
  {
    QaPhraseInAnkaraTurkey();
    QaJobRules.TurkeyOutsideIstanbulRejected();
  }

  lemma QaPhraseInAnkaraTurkey()
    ensures LegacyJobMatches("Quality Assurance, Ankara, Turkey")
  {
    LoweredAnkaraJob();
    var l := "quality assurance, ankara, turkey";
    assert OccursAt(l, "quality assurance", 0);
    assert OccursAt(l, "turkey", 27);
  }

  lemma LoweredAnkaraJob()
    ensures Lower("Quality Assurance, Ankara, Turkey") == "quality assurance, ankara, turkey"
  {
    assert "Quality Assurance, Ankara, Turkey" == "Quality Assurance, " + "Ankara, Turkey";
    LowerConcat("Quality Assurance, ", "Ankara, Turkey");
    assert Lower("Quality Assurance, ") == "quality assurance, ";
    assert Lower("Ankara, Turkey") == "ankara, turkey";
  }
}

=== FILE: pet.dfy ===
/**
 * The `Pet` data-transfer object of the pet-store API tests: a mutable record whose
 * constructors and setters replace a null `photoUrls` or `tags` list with an empty
 * one, whose setters each change one field, and whose `equals` compares the six
 * fields with the null-safe `Objects.equals` (tags through `Tag.equals`).
 */
module PetDto {
  import opened Wrappers
  import opened JavaText
  import opened TagDto

  /**
   * A pet category. Its class is not part of this model; it is taken to be a value
   * of its two schema fields, compared field-wise.
   */
  datatype Category = Category(id: Option<Int32>, name: Option<string>)

  /** `Pet.Status`: the three status strings of the schema. */
  const Available: string := "available"
  const Pending: string := "pending"
  const Sold: string := "sold"

  /** The observable state of a `Pet`: what `equals` compares (tags by their values). */
  datatype PetValue = PetValue(
    id: Option<Int32>,
    category: Option<Category>,
    name: Option<string>,
    photoUrls: Option<seq<string>>,
    tags: Option<seq<Option<TagValue>>>,
    status: Option<string>)

  /** The tag objects a tag list refers to. */
  function TagObjects(tags: Option<seq<Tag?>>): set<Tag>
  {
    if tags.None? then {} else set t: Tag | t in tags.value
  }

  /** The values of the tags in a list, `None` for a null element. */
  function TagValues(ts: seq<Tag?>): (r: seq<Option<TagValue>>)
    reads set t: Tag | t in ts
    ensures |r| == |ts|
  {
    if |ts| == 0 then [] else [NullableTagValue(ts[0])] + TagValues(ts[1..])
  }

  /** The value of a possibly null tag. */
  function NullableTagValue(t: Tag?): Option<TagValue>
    reads t
  {
    if t == null then None else Some(t.Value())
  }

  /** `Objects.equals` on two possibly null tags. */
  function NullableTagEquals(t: Tag?, u: Tag?): (r: bool)
    reads t, u
    ensures r <==> NullableTagValue(t) == NullableTagValue(u)
  {
    if t == null then u == null else t.Equals(u)
  }

  lemma ConsEquals<T>(x: T, s: seq<T>, y: T, t: seq<T>)
    ensures [x] + s == [y] + t <==> x == y && s == t
  {
    if [x] + s == [y] + t {
      assert x == ([x] + s)[0];
      assert s == ([x] + s)[1..];
    }
  }

  /** `List<Tag>.equals`: equal length, elements pairwise null-safe `Tag.equals`. */
  function TagListEquals(a: seq<Tag?>, b: seq<Tag?>): (r: bool)
    reads set t: Tag | t in a, set t: Tag | t in b
    ensures r <==> TagValues(a) == TagValues(b)
  {
    if |a| != |b| then false
    else if |a| == 0 then true
    else
      var tail := TagListEquals(a[1..], b[1..]);
      ConsEquals(NullableTagValue(a[0]), TagValues(a[1..]), NullableTagValue(b[0]), TagValues(b[1..]));
      NullableTagEquals(a[0], b[0]) && tail
  }

  /** `Objects.equals` on two nullable tag lists. */
  function NullableTagListEquals(a: Option<seq<Tag?>>, b: Option<seq<Tag?>>): bool
    reads TagObjects(a), TagObjects(b)
  {
    match (a, b)
    case (None, None) => true
    case (Some(x), Some(y)) => TagListEquals(x, y)
    case _ => false
  }

  function NullableTagValues(tags: Option<seq<Tag?>>): Option<seq<Option<TagValue>>>
    reads TagObjects(tags)
  {
    if tags.None? then None else Some(TagValues(tags.value))
  }

  class Pet {
    var id: Option<Int32>
    var category: Option<Category>
    var name: Option<string>
    var photoUrls: Option<seq<string>>
    var tags: Option<seq<Tag?>>
    var status: Option<string>

    /**
     * The lists are never null: every constructor establishes this and every setter
     * keeps it. Nothing else relies on it, since `equals` compares the lists null-safely.
     */
    ghost predicate Valid()
      reads this
    {
      photoUrls.Some? && tags.Some?
    }

    /** `new Pet()`: empty lists, every other field unset. */
    constructor Empty()
      ensures Valid()
      ensures photoUrls == Some([]) && tags == Some([])
      ensures id == None && category == None && name == None && status == None
    {
      id, category, name, status := None, None, None, None;
      photoUrls, tags := Some([]), Some([]);
    }

    /** `new Pet(name, photoUrls)`: a null list becomes empty; tags empty; the rest unset. */
    constructor Named(name: Option<string>, photoUrls: Option<seq<string>>)
      ensures Valid()
      ensures this.name == name
      ensures this.photoUrls == Some(if photoUrls.Some? then photoUrls.value else [])
      ensures tags == Some([])
      ensures id == None && category == None && status == None
    {
      this.name := name;
      this.photoUrls := if photoUrls != None then photoUrls else Some([]);
      this.tags := Some([]);
      id, category, status := None, None, None;
    }

    /** The six-argument constructor: null lists become empty, everything else stored as given. */
    constructor (id: Option<Int32>, category: Option<Category>, name: Option<string>,
                 photoUrls: Option<seq<string>>, tags: Option<seq<Tag?>>, status: Option<string>)
      ensures Valid()
      ensures this.id == id && this.category == category && this.name == name && this.status == status
      ensures this.photoUrls == Some(if photoUrls.Some? then photoUrls.value else [])
      ensures this.tags == Some(if tags.Some? then tags.value else [])
    {
      this.id := id;
      this.category := category;
      this.name := name;
      this.photoUrls := if photoUrls != None then photoUrls else Some([]);
      this.tags := if tags != None then tags else Some([]);
      this.status := status;
    }

    /** `setId`: changes the id only. */
    method SetId(id: Option<Int32>)
      modifies this
      ensures this.id == id
      ensures category == old(category) && name == old(name) && photoUrls == old(photoUrls)
      ensures tags == old(tags) && status == old(status)
      ensures old(Valid()) ==> Valid()
    {
      this.id := id;
    }

    /** `setCategory`: changes the category only. */
    method SetCategory(category: Option<Category>)
      modifies this
      ensures this.category == category
      ensures id == old(id) && name == old(name) && photoUrls == old(photoUrls)
      ensures tags == old(tags) && status == old(status)
      ensures old(Valid()) ==> Valid()
    {
      this.category := category;
    }

    /** `setName`: changes the name only. */
    method SetName(name: Option<string>)
      modifies this
      ensures this.name == name
      ensures id == old(id) && category == old(category) && photoUrls == old(photoUrls)
      ensures tags == old(tags) && status == old(status)
      ensures old(Valid()) ==> Valid()
    {
      this.name := name;
    }

    /** `setPhotoUrls`: stores a non-null list as given, an empty list for null; nothing else changes. */
    method SetPhotoUrls(photoUrls: Option<seq<string>>)
      modifies this
      ensures this.photoUrls == Some(if photoUrls.Some? then photoUrls.value else [])
      ensures id == old(id) && category == old(category) && name == old(name)
      ensures tags == old(tags) && status == old(status)
      ensures old(Valid()) ==> Valid()
    {
      this.photoUrls := if photoUrls != None then photoUrls else Some([]);
    }

    /** `setTags`: stores a non-null list as given, an empty list for null; nothing else changes. */
    method SetTags(tags: Option<seq<Tag?>>)
      modifies this
      ensures this.tags == Some(if tags.Some? then tags.value else [])
      ensures id == old(id) && category == old(category) && name == old(name)
      ensures photoUrls == old(photoUrls) && status == old(status)
      ensures old(Valid()) ==> Valid()
    {
      this.tags := if tags != None then tags else Some([]);
    }

    /** `setStatus`: changes the status only (any string is accepted). */
    method SetStatus(status: Option<string>)
      modifies this
      ensures this.status == status
      ensures id == old(id) && category == old(category) && name == old(name)
      ensures photoUrls == old(photoUrls) && tags == old(tags)
      ensures old(Valid()) ==> Valid()
    {
      this.status := status;
    }

    function Value(): PetValue
      reads this, TagObjects(tags)
    {
      PetValue(id, category, name, photoUrls, NullableTagValues(tags), status)
    }

    /**
     * `equals(o)`: true for the same object, false for null, otherwise the six fields
     * compared with `Objects.equals` (the tag lists element-wise with `Tag.equals`).
     * The result is equality of the observable values.
     */
    function Equals(o: Pet?): (r: bool)
      reads this, o, TagObjects(tags), if o == null then {} else TagObjects(o.tags)
      ensures r <==> o != null && Value() == o.Value()
    {
      this == o ||
        (o != null
         && id == o.id
         && category == o.category
         && name == o.name
         && photoUrls == o.photoUrls
         && NullableTagListEquals(tags, o.tags)
         && status == o.status)
    }
  }

  // ----- lemmas -----

  /** The three status constants are distinct strings. */
  lemma StatusConstantsDistinct()
    ensures Available != Pending && Available != Sold && Pending != Sold
    ensures Available == "available" && Pending == "pending" && Sold == "sold"
  {
  }

  /** `equals` is reflexive. */
  lemma EqualsReflexive(p: Pet)
    ensures p.Equals(p)
  {
  }

  /** `equals` is symmetric. */
  lemma EqualsSymmetric(p: Pet, q: Pet)
    ensures p.Equals(q) == q.Equals(p)
  {
  }

  /** `equals` is transitive. */
  lemma EqualsTransitive(p: Pet, q: Pet, w: Pet)
    requires p.Equals(q) && q.Equals(w)
    ensures p.Equals(w)
  {
  }
}

=== FILE: qa_job_rules.dfy ===
/**
 * The job-listing check of the careers page (the newer page-object variant):
 * every displayed job card is read for its title, department and location; a card
 * matches when its title or department mentions "quality assurance" and its
 * location mentions Istanbul and Turkey/Turkiye, all ignoring case. The check
 * passes when at least one displayed card matches.
 */
module QaJobRules {
  import opened Wrappers
  import opened JavaText

  /**
   * A job card as the page shows it. A missing department or location element is
   * `None`; a missing title element is `None` too and makes the whole check fail.
   * `readable` is false when reading one of the card's texts throws (a stale
   * element, say), which also ends the whole check with false.
   */
  datatype JobCard = JobCard(
    displayed: bool,
    title: Option<string>,
    department: Option<string>,
    location: Option<string>,
    readable: bool)

  /** The text mentions "quality assurance", ignoring case. */
  predicate MentionsQa(text: string)
  {
    Contains(Lower(text), "quality assurance")
  }

  /** The text mentions "istanbul" and "turkey" or "turkiye", ignoring case. */
  predicate InIstanbulTurkey(text: string)
  {
    var l := Lower(text);
    Contains(l, "istanbul") && (Contains(l, "turkey") || Contains(l, "turkiye"))
  }

  /** The criteria applied to the trimmed texts; a missing element reads as "". */
  predicate CardMatches(title: string, department: Option<string>, location: Option<string>)
  {
    (MentionsQa(Trim(title)) || MentionsQa(Trim(department.GetOr(""))))
    && InIstanbulTurkey(Trim(location.GetOr("")))
  }

  /** A card that adds one to `matchCount`: displayed, with a title, matching. */
  predicate Counted(job: JobCard)
  {
    job.displayed && job.title.Some? && CardMatches(job.title.value, job.department, job.location)
  }

  /**
   * Every displayed card has a title element and readable texts; otherwise the
   * lookup or a `getText` throws and the check reports false.
   */
  predicate CardsReadable(jobs: seq<JobCard>)
  {
    forall i :: 0 <= i < |jobs| && jobs[i].displayed ==> jobs[i].title.Some? && jobs[i].readable
  }

  /** `matchCount` after the cards of `jobs`. */
  function MatchCount(jobs: seq<JobCard>): nat
  {
    if |jobs| == 0 then 0
    else MatchCount(jobs[..|jobs| - 1]) + (if Counted(jobs[|jobs| - 1]) then 1 else 0)
  }

  /**
   * `verifyAllJobsMatchCriteria`: false for an empty list and when a displayed
   * card has no title element or a text that cannot be read (the exception is
   * caught and reported as false);
   * otherwise true exactly when `matchCount > 0`, i.e. at least one displayed card
   * matches, however many others do not.
   */
  method VerifyJobsMatchCriteria(jobs: seq<JobCard>) returns (ok: bool)
    ensures ok <==> |jobs| > 0 && CardsReadable(jobs) && MatchCount(jobs) > 0
  {
    if |jobs| == 0 {
      return false;
    }
    var matchCount := 0;
    for i := 0 to |jobs|
      invariant matchCount == MatchCount(jobs[..i])
      invariant CardsReadable(jobs[..i])
    {
      assert jobs[..i + 1][..i] == jobs[..i];
      var job := jobs[i];
      if !job.displayed {
        continue;
      }
      if job.title.None? || !job.readable {
        assert jobs[i].displayed && !(jobs[i].title.Some? && jobs[i].readable);
        return false;
      }
      if CardMatches(job.title.value, job.department, job.location) {
        matchCount := matchCount + 1;
      }
    }
    assert jobs[..|jobs|] == jobs;
    return matchCount > 0;
  }

  // ----- lemmas -----

  /** `matchCount > 0` means exactly that some displayed card matches. */
  lemma {:induction false} MatchCountPositive(jobs: seq<JobCard>)
    ensures MatchCount(jobs) > 0 <==> exists i :: 0 <= i < |jobs| && Counted(jobs[i])
  {
    if |jobs| > 0 {
      var front := jobs[..|jobs| - 1];
      var last := |jobs| - 1;
      MatchCountPositive(front);
      if MatchCount(jobs) > 0 {
        if !Counted(jobs[last]) {
          var i :| 0 <= i < |front| && Counted(front[i]);
          assert front[i] == jobs[i];
        }
      } else {
        assert !Counted(jobs[last]) && MatchCount(front) == 0;
        forall i | 0 <= i < |jobs|
          ensures !Counted(jobs[i])
        {
          if i < last {
            assert front[i] == jobs[i];
          }
        }
      }
    }
  }

  /** Appending one card adds one to `matchCount` exactly when that card is counted. */
  lemma MatchCountSnoc(jobs: seq<JobCard>, job: JobCard)
    ensures MatchCount(jobs + [job]) == MatchCount(jobs) + (if Counted(job) then 1 else 0)
  {
    assert (jobs + [job])[..|jobs|] == jobs;
  }

  /** `matchCount` never exceeds the number of cards. */
  lemma {:induction false} MatchCountBound(jobs: seq<JobCard>)
    ensures MatchCount(jobs) <= |jobs|
  {
    if |jobs| > 0 {
      MatchCountBound(jobs[..|jobs| - 1]);
    }
  }

  /** Hidden cards are skipped: appending one changes neither the count nor the verdict. */
  lemma HiddenCardSkipped(jobs: seq<JobCard>, hidden: JobCard)
    requires !hidden.displayed
    ensures MatchCount(jobs + [hidden]) == MatchCount(jobs)
    ensures CardsReadable(jobs + [hidden]) == CardsReadable(jobs)
  {
    MatchCountSnoc(jobs, hidden);
    assert forall i :: 0 <= i < |jobs| ==> (jobs + [hidden])[i] == jobs[i];
  }

  /**
   * "At least one", not "all": a displayed card that does not match, appended to
   * the list, leaves the count and so the verdict as they were.
   */
  lemma NonMatchingCardTolerated(jobs: seq<JobCard>, other: JobCard)
    requires other.displayed && other.title.Some? && other.readable && !Counted(other)
    ensures MatchCount(jobs + [other]) == MatchCount(jobs)
    ensures CardsReadable(jobs + [other]) == CardsReadable(jobs)
  {
    MatchCountSnoc(jobs, other);
    assert forall i :: 0 <= i < |jobs| ==> (jobs + [other])[i] == jobs[i];
  }

  /** A card without a location element never matches, whatever its title. */
  lemma NoLocationNeverMatches(job: JobCard)
    requires job.location.None?
    ensures !Counted(job)
  {
    assert Trim("") == "";
    ContainsNeedsRoom(Lower(""), "istanbul");
  }

  /** A QA job in Turkey but not in Istanbul does not match. */
  lemma TurkeyOutsideIstanbulRejected()
    ensures !CardMatches("Quality Assurance", None, Some("Ankara, Turkey"))
  {
    assert Trim("Ankara, Turkey") == "Ankara, Turkey";
    assert Lower("Ankara, Turkey") == "ankara, turkey";
    ContainsNeedsChar("ankara, turkey", "istanbul");
  }
}

=== FILE: qa_option_rules.dfy ===
/**
 * The dropdown decisions of the careers page, identical in both page-object
 * variants: which Istanbul option the location filter clicks (a Select2 widget or
 * a plain `<select>`), how the department filter picks an option by exact or
 * partial text, and the "contains" check that accepts the department shown.
 *
 * Options are the texts `getText()` returns, in page order. Selenium's
 * `selectByVisibleText(v)` is modelled by `FindVisibleText`: the first option whose
 * trimmed text equals `v`; no such option is the `NoSuchElementException` it throws.
 */
module QaOptionRules {
  import opened Wrappers
  import opened JavaText

  const IstanbulTurkiye: string := "Istanbul, Turkiye"
  // The longer messages are written in two parts so that the verifier sees their
  // first character.
  const Select2NotFound: string := "Location " + "'Istanbul, Turkey' not found in dropdown options"
  const NoIstanbulOption: string := "Could " + "not select any location option with Istanbul"
  /**
   * The prefixes `applyLocationFilter` (older variant only) and `applyDepartmentFilter`
   * (both variants) put on the message of an exception they catch.
   */
  const LocationFailedPrefix: string := "Failed to apply location filter: "
  const FilterFailedPrefix: string := "Failed to apply department filter: "
  const NotAppliedPrefix: string := "Department " + "filter was not applied correctly. Expected to contain '"
  /** The message Selenium's `getFirstSelectedOption` throws with when nothing is selected. */
  const NoOptionsSelected: string := "No options are selected"

  /** An entry of the Select2 results list. */
  datatype UiOption = UiOption(text: string, displayed: bool)

  /** Which pass of the Select2 search clicked the option, and its index in that pass's list. */
  datatype Select2Pick = ById(index: nat) | Listed(index: nat)

  // ----- predicates on option texts -----

  /** The case-sensitive Istanbul test of both Select2 passes. */
  predicate Select2TextMatches(text: string)
  {
    Contains(text, "Istanbul") && (Contains(text, "Turkiye") || Contains(text, "Turkey"))
  }

  /** The second Select2 pass also takes "Istanbul, Turkiye" in any letter case. */
  predicate Select2Accepts(text: string)
  {
    EqualsIgnoreCase(text, IstanbulTurkiye) || Select2TextMatches(text)
  }

  /** The check on the Select2 title attribute once an option was clicked. */
  predicate ContainsTurkey(selectedText: string)
  {
    var l := Lower(Trim(selectedText));
    Contains(l, "turkey") || Contains(l, "turkiye")
  }

  /** The partial test of the plain-select fallback. */
  predicate MentionsIstanbul(text: string)
  {
    Contains(Lower(Trim(text)), "istanbul")
  }

  /** The department check: the trimmed selected text contains the expected one, ignoring case. */
  predicate DepartmentMatches(selectedText: string, expected: string)
  {
    Contains(Lower(Trim(selectedText)), Lower(expected))
  }

  /** The filter of the partial fallback: the untrimmed text contains the value, ignoring case. */
  predicate PartiallyMatches(text: string, value: string)
  {
    Contains(Lower(text), Lower(value))
  }

  /** The message of the `AssertionError` a failed department check throws. */
  function NotAppliedMessage(department: string, selectedText: string): (m: string)
    ensures NotAppliedPrefix <= m
  {
    NotAppliedPrefix + department + "' but got '" + selectedText + "'"
  }

  // ----- option searches -----

  /** `selectByVisibleText(value)`: the first option (from `from` on) whose trimmed text is `value`. */
  function FindVisibleText(options: seq<string>, value: string, from: nat): (r: Option<nat>)
    requires from <= |options|
    ensures r.Some? ==> from <= r.value < |options| && Trim(options[r.value]) == value
    ensures r.Some? ==> forall j :: from <= j < r.value ==> Trim(options[j]) != value
    ensures r.None? <==> forall j :: from <= j < |options| ==> Trim(options[j]) != value
    decreases |options| - from
  {
    if from == |options| then None
    else if Trim(options[from]) == value then Some(from)
    else FindVisibleText(options, value, from + 1)
  }

  /** The first option (from `from` on) that passes the partial filter: `filter(...).findFirst()`. */
  function FirstPartialMatch(options: seq<string>, value: string, from: nat): (r: Option<nat>)
    requires from <= |options|
    ensures r.Some? ==> from <= r.value < |options| && PartiallyMatches(options[r.value], value)
    ensures r.Some? ==> forall j :: from <= j < r.value ==> !PartiallyMatches(options[j], value)
    ensures r.None? <==> forall j :: from <= j < |options| ==> !PartiallyMatches(options[j], value)
    decreases |options| - from
  {
    if from == |options| then None
    else if PartiallyMatches(options[from], value) then Some(from)
    else FirstPartialMatch(options, value, from + 1)
  }

  /**
   * `selectOptionByVisibleTextOrPartial`: the exact option if there is one; otherwise
   * the first option whose text contains the value ignoring case, selected again by
   * its own text (a failure there is swallowed); `None` when nothing was selected.
   */
  function SelectByVisibleTextOrPartial(options: seq<string>, value: string): (r: Option<nat>)
    ensures r.Some? ==> r.value < |options|
    ensures FindVisibleText(options, value, 0).Some? ==> r == FindVisibleText(options, value, 0)
    ensures r.None? ==> FindVisibleText(options, value, 0).None?
  {
    match FindVisibleText(options, value, 0)
    case Some(i) => Some(i)
    case None =>
      match FirstPartialMatch(options, value, 0)
      case None => None
      case Some(i) => FindVisibleText(options, options[i], 0)
  }

  /**
   * The option search of `applyLocationFilter` on a Select2 widget. Pass 1 walks the
   * options whose id names Istanbul (`byId`; the lookup failing is an empty list) and
   * clicks the first whose trimmed text passes the case-sensitive test. Pass 2 walks
   * all options and clicks the first displayed one that `Select2Accepts`. With no
   * click the method fails with the "not found" `RuntimeException`; what the caller
   * then sees depends on the variant (`LocationFailure`).
   */
  method ChooseSelect2Option(byId: seq<string>, options: seq<UiOption>) returns (r: Result<Select2Pick>)
    ensures r.Ok? && r.value.ById? ==>
      && r.value.index < |byId| && Select2TextMatches(Trim(byId[r.value.index]))
      && forall j :: 0 <= j < r.value.index ==> !Select2TextMatches(Trim(byId[j]))
    ensures r.Ok? && r.value.Listed? ==>
      && (forall j :: 0 <= j < |byId| ==> !Select2TextMatches(Trim(byId[j])))
      && r.value.index < |options|
      && options[r.value.index].displayed && Select2Accepts(Trim(options[r.value.index].text))
      && forall j :: 0 <= j < r.value.index ==> !(options[j].displayed && Select2Accepts(Trim(options[j].text)))
    ensures r.Err? <==>
      && (forall j :: 0 <= j < |byId| ==> !Select2TextMatches(Trim(byId[j])))
      && (forall j :: 0 <= j < |options| ==> !(options[j].displayed && Select2Accepts(Trim(options[j].text))))
    ensures r.Err? ==> r.message == Select2NotFound
  {
    for i := 0 to |byId|
      invariant forall j :: 0 <= j < i ==> !Select2TextMatches(Trim(byId[j]))
    {
      var optionText := Trim(byId[i]);
      if Select2TextMatches(optionText) {
        return Ok(ById(i));
      }
    }
    for i := 0 to |options|
      invariant forall j :: 0 <= j < i ==> !(options[j].displayed && Select2Accepts(Trim(options[j].text)))
    {
      if options[i].displayed {
        var optionText := Trim(options[i].text);
        if Select2Accepts(optionText) {
          return Ok(Listed(i));
        }
      }
    }
    return Err(Select2NotFound);
  }

  /**
   * What the caller of `applyLocationFilter` sees of a `RuntimeException` raised by
   * either option search. The older variant catches every `Exception` and rethrows
   * it with the "Failed to apply location filter: " prefix; the newer variant
   * catches only `NoSuchElementException`, `StaleElementReferenceException` and
   * `TimeoutException`, so the message escapes as it was raised.
   */
  function LocationFailure(legacy: bool, message: string): (seen: string)
    ensures legacy ==> seen == LocationFailedPrefix + message
    ensures !legacy ==> seen == message
  {
    if legacy then LocationFailedPrefix + message else message
  }

  /**
   * The option search of `applyLocationFilter` on a plain `<select>`: the exact
   * "Istanbul, Turkiye" option if present; otherwise the first option whose trimmed
   * lower-cased text contains "istanbul", selected again by its trimmed text; with
   * neither, the "could not select" `RuntimeException` (see `LocationFailure`).
   */
  method ChooseRegularLocation(options: seq<string>) returns (r: Result<nat>)
    ensures r.Ok? ==> r.value < |options|
    ensures FindVisibleText(options, IstanbulTurkiye, 0).Some? ==>
      r == Ok(FindVisibleText(options, IstanbulTurkiye, 0).value)
    ensures FindVisibleText(options, IstanbulTurkiye, 0).None? ==>
      && (r.Ok? <==> exists i :: 0 <= i < |options| && MentionsIstanbul(options[i]))
      && (r.Ok? ==> MentionsIstanbul(options[r.value]) &&
                    forall j :: 0 <= j < r.value ==> !MentionsIstanbul(options[j]))
    ensures r.Err? ==> r.message == NoIstanbulOption
  {
    var exact := FindVisibleText(options, IstanbulTurkiye, 0);
    if exact.Some? {
      return Ok(exact.value);
    }
    for i := 0 to |options|
      invariant forall j :: 0 <= j < i ==> !MentionsIstanbul(options[j])
    {
      var optionText := Lower(Trim(options[i]));
      if Contains(optionText, "istanbul") {
        var selected := FindVisibleText(options, Trim(options[i]), 0);
        // every earlier option with the same trimmed text would mention Istanbul too
        assert selected == Some(i) by {
          ReselectFindsSame(options, i);
        }
        return Ok(selected.value);
      }
    }
    return Err(NoIstanbulOption);
  }
  /** The location `applyLocationFilter` selected: a Select2 click or a plain `<select>` option. */
  datatype LocationPick = Select2Click(pick: Select2Pick) | PlainOption(index: nat)

  /**
   * `applyLocationFilter`: the Select2 search when the widget is a Select2, the
   * plain `<select>` search otherwise; a search's `RuntimeException` reaches the
   * caller as `LocationFailure` of the variant makes it.
   */
  method ApplyLocationFilter(legacy: bool, useSelect2: bool, byId: seq<string>, listed: seq<UiOption>, options: seq<string>)
    returns (r: Result<LocationPick>)
    ensures r.Ok? ==> (r.value.Select2Click? <==> useSelect2)
    ensures r.Ok? && r.value.PlainOption? ==> r.value.index < |options|
    ensures useSelect2 ==>
      (r.Err? <==>
        && (forall j :: 0 <= j < |byId| ==> !Select2TextMatches(Trim(byId[j])))
        && (forall j :: 0 <= j < |listed| ==> !(listed[j].displayed && Select2Accepts(Trim(listed[j].text)))))
    ensures !useSelect2 ==>
      (r.Err? <==>
        && FindVisibleText(options, IstanbulTurkiye, 0).None?
        && (forall j :: 0 <= j < |options| ==> !MentionsIstanbul(options[j])))
    ensures r.Err? ==> (LocationFailedPrefix <= r.message <==> legacy)
    ensures !legacy && r.Err? ==> r.message == (if useSelect2 then Select2NotFound else NoIstanbulOption)
    ensures legacy && r.Err? ==>
      r.message == LocationFailedPrefix + (if useSelect2 then Select2NotFound else NoIstanbulOption)
  {
    SearchMessagesUnprefixed();
    if useSelect2 {
      var found := ChooseSelect2Option(byId, listed);
      if found.Err? {
        return Err(LocationFailure(legacy, found.message));
      }
      return Ok(Select2Click(found.value));
    } else {
      var found := ChooseRegularLocation(options);
      if found.Err? {
        return Err(LocationFailure(legacy, found.message));
      }
      return Ok(PlainOption(found.value));
    }
  }


  /**
   * The manual fallback of `waitForDepartmentFilterToLoad`: walk the options, and
   * for each whose trimmed text contains the expected department ignoring case,
   * select it by that text and re-read the selection; succeed on the first
   * selection that passes the department check.
   */
  method ManualDepartmentSelection(options: seq<string>, expected: string) returns (ok: bool)
    ensures ok <==> exists i :: 0 <= i < |options| && DepartmentMatches(options[i], expected)
  {
    for i := 0 to |options|
      invariant forall j :: 0 <= j < i ==> !DepartmentMatches(options[j], expected)
    {
      var optionText := Trim(options[i]);
      if Contains(Lower(optionText), Lower(expected)) {
        var selected := FindVisibleText(options, optionText, 0);
        if selected.None? {
          // `selectByVisibleText` threw: caught, reported as a failed update
          return false;
        }
        var selectedText := Trim(options[selected.value]);
        if Contains(Lower(selectedText), Lower(expected)) {
          return true;
        }
      }
    }
    return false;
  }

  /**
   * `applyDepartmentFilter`. It first reads the selected option (`selectedBefore`).
   * With none selected, Selenium's `NoSuchElementException` is caught and rethrown
   * with the "Failed to apply" prefix. Otherwise it selects the department, keeping
   * the earlier option when nothing could be selected, and requires the selected
   * option to pass the department check. A failed check is an `AssertionError`,
   * which `catch (Exception e)` does not catch, so its message escapes unwrapped.
   */
  function ApplyDepartmentFilter(options: seq<string>, selectedBefore: Option<nat>, department: string): (r: Result<nat>)
    requires selectedBefore.Some? ==> selectedBefore.value < |options|
    ensures selectedBefore.None? ==> r == Err(FilterFailedPrefix + NoOptionsSelected)
    ensures r.Ok? ==> r.value < |options| && DepartmentMatches(options[r.value], department)
    ensures selectedBefore.Some? ==>
      (r.Err? <==> SelectByVisibleTextOrPartial(options, department).None?
                   && !DepartmentMatches(options[selectedBefore.value], department))
    ensures selectedBefore.Some? && r.Err? ==>
      && r.message == NotAppliedMessage(department, Trim(options[selectedBefore.value]))
      && !(FilterFailedPrefix <= r.message)
  {
    if selectedBefore.None? then Err(FilterFailedPrefix + NoOptionsSelected)
    else
      var chosen := SelectByVisibleTextOrPartial(options, department);
      assert chosen.Some? ==> DepartmentMatches(options[chosen.value], department) by {
        if chosen.Some? {
          SelectionPassesDepartmentCheck(options, department);
        }
      }
      var selected := chosen.GetOr(selectedBefore.value);
      if DepartmentMatches(options[selected], department) then Ok(selected)
      else
        assert NotAppliedMessage(department, Trim(options[selected]))[0] == NotAppliedPrefix[0];
        Err(NotAppliedMessage(department, Trim(options[selected])))
  }

  // ----- lemmas -----

  /** Neither search's own message starts with the "Failed to apply location filter" prefix. */
  lemma SearchMessagesUnprefixed()
    ensures !(LocationFailedPrefix <= Select2NotFound)
    ensures !(LocationFailedPrefix <= NoIstanbulOption)
  {
    assert LocationFailedPrefix[0] != Select2NotFound[0];
    assert LocationFailedPrefix[0] != NoIstanbulOption[0];
  }

  /**
   * Re-selecting the first Istanbul option by its trimmed text finds that same
   * option: an earlier option with the same trimmed text would have come first.
   */
  lemma ReselectFindsSame(options: seq<string>, i: nat)
    requires i < |options| && MentionsIstanbul(options[i])
    requires forall j :: 0 <= j < i ==> !MentionsIstanbul(options[j])
    ensures FindVisibleText(options, Trim(options[i]), 0) == Some(i)
  {
    var v := Trim(options[i]);
    forall j | 0 <= j < i
      ensures Trim(options[j]) != v
    {
      assert !MentionsIstanbul(options[j]);
    }
    var r := FindVisibleText(options, v, 0);
    assert r.Some?;
    assert r.value <= i;
    assert r.value == i;
  }

  /**
   * Whatever `selectOptionByVisibleTextOrPartial` selects passes the department
   * check that `applyDepartmentFilter` applies next.
   */
  lemma SelectionPassesDepartmentCheck(options: seq<string>, value: string)
    requires SelectByVisibleTextOrPartial(options, value).Some?
    ensures DepartmentMatches(options[SelectByVisibleTextOrPartial(options, value).value], value)
  {
    var j := SelectByVisibleTextOrPartial(options, value).value;
    if FindVisibleText(options, value, 0).Some? {
      assert Trim(options[j]) == value;
      ContainsSelf(Lower(value));
    } else {
      var i := FirstPartialMatch(options, value, 0).value;
      assert Trim(options[j]) == options[i];
    }
  }

  /**
   * When the department can be selected at all, `applyDepartmentFilter` succeeds
   * with that option, provided some option was selected before; with none selected
   * before it fails whatever the options are.
   */
  lemma DepartmentFilterAppliesSelection(options: seq<string>, selectedBefore: Option<nat>, department: string)
    requires selectedBefore.Some? ==> selectedBefore.value < |options|
    requires SelectByVisibleTextOrPartial(options, department).Some?
    ensures ApplyDepartmentFilter(options, selectedBefore, department)
      == if selectedBefore.None? then Err(FilterFailedPrefix + NoOptionsSelected)
         else Ok(SelectByVisibleTextOrPartial(options, department).value)
  {
    SelectionPassesDepartmentCheck(options, department);
  }

  /**
   * The partial fallback selects the first option, in list order, whose text
   * contains the value ignoring case, when there is no exact option and that
   * option's text carries no surrounding white space.
   */
  lemma PartialSelectsFirstContaining(options: seq<string>, value: string, i: nat)
    requires FindVisibleText(options, value, 0).None?
    requires i < |options| && PartiallyMatches(options[i], value)
    requires forall j :: 0 <= j < i ==> !PartiallyMatches(options[j], value)
    requires Trim(options[i]) == options[i]
    ensures SelectByVisibleTextOrPartial(options, value) == Some(i)
  {
    FirstPartialMatchIs(options, value, i);
    forall k | 0 <= k < i
      ensures Trim(options[k]) != options[i]
    {
      TrimKeepsPartialMatch(options[k], value);
    }
    FindVisibleTextIs(options, options[i], i);
  }

  /** The exact search stops at the first option whose trimmed text is the value. */
  lemma FindVisibleTextIs(options: seq<string>, value: string, i: nat)
    requires i < |options| && Trim(options[i]) == value
    requires forall k :: 0 <= k < i ==> Trim(options[k]) != value
    ensures FindVisibleText(options, value, 0) == Some(i)
  {
    var r := FindVisibleText(options, value, 0);
    assert r.Some?;
    assert r.value <= i;
  }

  /** The partial filter stops at the first option that passes it. */
  lemma FirstPartialMatchIs(options: seq<string>, value: string, i: nat)
    requires i < |options| && PartiallyMatches(options[i], value)
    requires forall k :: 0 <= k < i ==> !PartiallyMatches(options[k], value)
    ensures FirstPartialMatch(options, value, 0) == Some(i)
  {
    var r := FirstPartialMatch(options, value, 0);
    assert r.Some?;
    assert r.value <= i;
  }

  /** With no option containing the value, ignoring case, nothing is selected. */
  lemma NoPartialMatchSelectsNothing(options: seq<string>, value: string)
    requires forall j :: 0 <= j < |options| ==> !PartiallyMatches(options[j], value)
    ensures SelectByVisibleTextOrPartial(options, value).None?
  {
    ContainsSelf(Lower(value));
    forall k | 0 <= k < |options|
      ensures Trim(options[k]) != value
    {
      TrimKeepsPartialMatch(options[k], value);
    }
  }

  /** The department check ignores letter case on both sides. */
  lemma DepartmentMatchesIgnoresCase(selectedText: string, expected: string)
    ensures DepartmentMatches(selectedText, expected) == DepartmentMatches(selectedText, Lower(expected))
    ensures DepartmentMatches(selectedText, expected) == DepartmentMatches(Lower(selectedText), expected)
  {
    LowerIdempotent(expected);
    LowerTrimCommute(selectedText);
    LowerIdempotent(Trim(selectedText));
    LowerTrimCommute(Lower(selectedText));
    LowerIdempotent(selectedText);
  }

  /**
   * An option the Select2 search clicks always passes the later "contains
   * Turkey/Turkiye" check, provided that check reads the clicked option's text.
   * On the page it reads the `title` attribute of the rendered selection instead,
   * which this model takes to show the clicked option's text.
   */
  lemma AcceptedOptionContainsTurkey(text: string)
    requires Select2Accepts(Trim(text))
    ensures ContainsTurkey(text)
  {
    var t := Trim(text);
    LoweredPhrases();
    if EqualsIgnoreCase(t, IstanbulTurkiye) {
      assert Lower(t) == Lower(IstanbulTurkiye);
    } else if Contains(t, "Turkiye") {
      ContainsLower(t, "Turkiye");
    } else {
      ContainsLower(t, "Turkey");
    }
  }

  /** The lower-cased forms of the phrases the Select2 test looks for. */
  lemma LoweredPhrases()
    ensures Lower("Turkey") == "turkey" && Lower("Turkiye") == "turkiye"
    ensures Contains(Lower(IstanbulTurkiye), "turkiye")
  {
    assert Lower(IstanbulTurkiye) == "istanbul, turkiye";
    assert OccursAt("istanbul, turkiye", "turkiye", 10);
  }

  /**
   * The accepted Select2 text is case-sensitive except for the one exact phrase:
   * "ISTANBUL, TURKIYE" is taken, "istanbul, turkey" is not.
   */
  lemma Select2CaseAsymmetry()
    ensures Select2Accepts("ISTANBUL, TURKIYE")
    ensures !Select2Accepts("istanbul, turkey")
  {
    assert Lower("ISTANBUL, TURKIYE") == Lower(IstanbulTurkiye);
    var s := "istanbul, turkey";
    assert !EqualsIgnoreCase(s, IstanbulTurkiye) by {
      assert |Lower(s)| != |Lower(IstanbulTurkiye)|;
    }
    assert 'I' !in s;
    ContainsNeedsChar(s, "Istanbul");
  }

  /** A text matches partially whenever its trimmed form does. */
  lemma TrimKeepsPartialMatch(text: string, value: string)
    ensures PartiallyMatches(Trim(text), value) ==> PartiallyMatches(text, value)
  {
    if PartiallyMatches(Trim(text), value) {
      TrimLowerContains(text);
      ContainsTransitive(Lower(text), Lower(Trim(text)), Lower(value));
    }
  }
}

=== FILE: scraper_url.dfy ===
/**
 * The URL normalisation of the load test's scraper session: a URL that does not
 * start with "http" is taken to be relative to the shop's host, and a "/" is put
 * between host and path only when the path does not already start with one.
 */
module ScraperUrl {
  import opened JavaText

  const Host: string := "https://www.n11.com"

  /** The request URL that `CloudScraperSession.get` sends for `url`. */
  function AbsoluteUrl(url: string): (r: string)
    ensures StartsWith(r, "http")
    ensures StartsWith(url, "http") ==> r == url
    ensures !StartsWith(url, "http") ==>
      && Host <= r
      && |r| == |Host| + |url| + (if StartsWith(url, "/") then 0 else 1)
      && r[|Host|] == '/'
      && r[|r| - |url|..] == url
  {
    if StartsWith(url, "http") then url
    else Host + (if StartsWith(url, "/") then "" else "/") + url
  }

  // ----- lemmas -----

  /** Normalising twice is normalising once. */
  lemma AbsoluteUrlIdempotent(url: string)
    ensures AbsoluteUrl(AbsoluteUrl(url)) == AbsoluteUrl(url)
  {
  }

  /** A relative URL becomes the host, one "/", then the path without its own leading "/". */
  lemma RelativeUrlGetsOneSlash(url: string)
    requires !StartsWith(url, "http")
    ensures AbsoluteUrl(url) == Host + "/" + (if StartsWith(url, "/") then url[1..] else url)
  {
    var r := AbsoluteUrl(url);
    if StartsWith(url, "/") {
      assert url == "/" + url[1..];
      assert r == Host + url;
    }
  }

  /**
   * No slash is doubled: unless the path itself starts with "//", the character
   * after the inserted or kept "/" is not another "/".
   */
  lemma NoDoubledSlash(url: string)
    requires !StartsWith(url, "http") && !StartsWith(url, "//")
    ensures var r := AbsoluteUrl(url);
      r[|Host|] == '/' && (|r| == |Host| + 1 || r[|Host| + 1] != '/')
  {
    var r := AbsoluteUrl(url);
    if StartsWith(url, "/") {
      assert r == Host + url;
      if |url| > 1 {
        assert r[|Host| + 1] == url[1];
        assert url[..2] == "//" ==> StartsWith(url, "//");
      }
    } else {
      assert r == Host + "/" + url;
      if |url| > 0 {
        assert r[|Host| + 1] == url[0];
        assert url[0] == '/' ==> StartsWith(url, "/");
      }
    }
  }

  /** Anything starting with "http" passes unchanged, even text that is no URL at all. */
  lemma NonUrlWithHttpPrefixUnchanged()
    ensures AbsoluteUrl("httpfoo") == "httpfoo"
  {
    assert StartsWith("httpfoo", "http");
  }
}

=== FILE: tag.dfy ===
/**
 * The `Tag` data-transfer object of the pet-store API tests: a mutable record of a
 * nullable `Integer` id and a nullable `String` name, with setters, field-wise
 * `equals` and a fixed `toString` shape.
 */
module TagDto {
  import opened Wrappers
  import opened JavaText

  /** The observable state of a `Tag`: what `equals` compares. */
  datatype TagValue = TagValue(id: Option<Int32>, name: Option<string>)

  const TagIdPrefix: string := "Tag{id="
  const TagNamePrefix: string := ", name='"
  const TagSuffix: string := "'}"

  class Tag {
    var id: Option<Int32>
    var name: Option<string>

    /** `new Tag()`: both fields unset (null). */
    constructor Empty()
      ensures id == None && name == None
    {
      id, name := None, None;
    }

    /** `new Tag(id, name)`: both arguments stored as given. */
    constructor (id: Option<Int32>, name: Option<string>)
      ensures this.id == id && this.name == name
    {
      this.id, this.name := id, name;
    }

    /** `setId`: replaces the id and nothing else. */
    method SetId(id: Option<Int32>)
      modifies this
      ensures this.id == id && name == old(name)
    {
      this.id := id;
    }

    /** `setName`: replaces the name and nothing else. */
    method SetName(name: Option<string>)
      modifies this
      ensures this.name == name && id == old(id)
    {
      this.name := name;
    }

    function Value(): TagValue
      reads this
    {
      TagValue(id, name)
    }

    /**
     * `equals(o)`: true for the same object, false for null, otherwise both fields
     * compared with the null-safe `Objects.equals`. The result is value equality.
     */
    function Equals(o: Tag?): (r: bool)
      reads this, o
      ensures r <==> o != null && Value() == o.Value()
    {
      this == o || (o != null && id == o.id && name == o.name)
    }

    /** `toString()`: `Tag{id=<id>, name='<name>'}`, with `null` for an unset field. */
    function ToString(): (r: string)
      reads this
      ensures TagIdPrefix <= r
      ensures |r| >= |TagIdPrefix| + |TagSuffix| && r[|r| - |TagSuffix|..] == TagSuffix
    {
      TagIdPrefix + ShowInt(id) + TagNamePrefix + ShowStr(name) + TagSuffix
    }
  }

  // ----- lemmas -----

  /** `equals` is reflexive. */
  lemma EqualsReflexive(t: Tag)
    ensures t.Equals(t)
  {
  }

  /** `equals` is symmetric. */
  lemma EqualsSymmetric(t: Tag, u: Tag)
    ensures t.Equals(u) == u.Equals(t)
  {
  }

  /** `equals` is transitive. */
  lemma EqualsTransitive(t: Tag, u: Tag, w: Tag)
    requires t.Equals(u) && u.Equals(w)
    ensures t.Equals(w)
  {
  }

  /**
   * The id and the name can be read back from `toString()`: the id is the text up
   * to the first comma after `Tag{id=`, what follows it is exactly
   * `, name='<name>'}`, so the name text sits between `, name='` and the closing `'}`.
   */
  lemma ToStringFields(t: Tag)
    ensures var r := t.ToString();
      var idText := UpTo(r[|TagIdPrefix|..], ',');
      && ReadInt(idText) == (if t.id.None? then None else Some(t.id.value))
      && r[|TagIdPrefix| + |idText|..] == TagNamePrefix + ShowStr(t.name) + TagSuffix
      && |TagIdPrefix| + |idText| + |TagNamePrefix| <= |r| - |TagSuffix|
      && r[|TagIdPrefix| + |idText| + |TagNamePrefix|..|r| - |TagSuffix|] == ShowStr(t.name)
  {
    var r := t.ToString();
    var idText := ShowInt(t.id);
    var rest := TagNamePrefix[1..] + ShowStr(t.name) + TagSuffix;
    assert r[|TagIdPrefix|..] == idText + [','] + rest;
    if t.id.Some? {
      DecimalStringChars(t.id.value);
    }
    assert ',' !in idText;
    UpToConcat(idText, ',', rest);
    ReadShowInt(t.id);
  }

  /**
   * `toString()` does not tell an unset name from the text "null": two tags that
   * differ only in that respect print alike but are not `equals`.
   */
  lemma NullNamePrintsLikeTextNull(t: Tag, u: Tag)
    requires t.id == u.id && t.name == None && u.name == Some("null")
    ensures t.ToString() == u.ToString() && !t.Equals(u)
  {
  }
}

=== FILE: wrappers.dfy ===
/** Optional values and results: Java's null and thrown exceptions are modelled with these. */
module Wrappers {

  /** A possibly absent value; `None` stands for Java's `null`. */
  datatype Option<+T> = None | Some(value: T) {
    /** The value, or `default` when absent (used for `x != null ? x : default`). */
    function GetOr(default: T): T
    {
      match this
      case Some(v) => v
      case None => default
    }
  }

  /** The outcome of an operation that may throw; `Err` carries the exception message. */
  datatype Result<+T> = Ok(value: T) | Err(message: string)
}
